=== FILE: README.md ===
# vwarp GUI: a Dafny model of the instance supervisor and its screens

The Android application runs several named instances of the `vwarp` proxy
program. A background service (`VwarpService`) keeps a registry from
instance name to child process, plus a "running" flag per name. A relay
thread per launch forwards the child's output as log broadcasts. The main
screen (`MainActivity`) remembers the instance names, sends start and stop
commands, renders the broadcasts and shows what runs. The configuration
editor (`ConfigEditorActivity`) keeps named JSON files in a `configs`
directory.

The model is written over immutable values:

- `Service.State` holds the registry (`processes`), the flags, the children
  (each with everything it writes, the lines its relay has forwarded and the
  lines not yet read), the launch threads (`workers`), the broadcast log and
  whether the service runs.
- `ServiceTrace` makes the service an interleaving of atomic steps: commands on
  the main thread, and spawn, read-a-line, end-of-loop and exception steps
  of each launch thread. It proves an invariant for every reachable state,
  proves that under every interleaving a child's lines are broadcast in the
  order it writes them, and exhibits four ways a running child can leave
  the registry while still running.
- `ConfigStore` treats the configuration directory as a map from file stem to
  content.
- `Client` models the main screen's instance list, start and delete, log
  rendering, running line and configuration list.

Modules, in dependency order: `Wrappers` (Option), `Strings` (Kotlin
`trim`, `contains`, `joinToString`, `Int.toString`), `StringOrder` (string
order and `sorted()`), `Messages` (command intent, log broadcast),
`ServiceArgs` (`buildArgs`), `Service`, `ServiceTrace`, `ConfigStore`,
`Client`.

Behaviours of the code that the model exposes as lemmas rather than
corrects:

- The code spawns on a separate thread, so two pending launches of one name
  both register, and the first child is left running unregistered
  (`ServiceTrace.PendingLaunchesOrphan`).
- A relay's cleanup removes its name, not its own process. A stale relay
  therefore unregisters a newer child of the same name
  (`ServiceTrace.StaleRelayUnregistersNewer`, and a concrete run from a fresh
  service in `ServiceTrace.StaleRelayReachable`).
- A read error ends in the same cleanup, which unregisters the child
  registered under the name while that child keeps running
  (`ServiceTrace.RelayErrorUnregistersRunning`).
- A launch that fails, for a missing binary or a failed spawn, also ends in
  that cleanup, and unregisters a running child registered under the same
  name in the meantime (`ServiceTrace.FailedLaunchUnregistersRunning`).
- An extra that is present but empty is not replaced by its default. Only an
  absent one is. The screen always sends trimmed fields, so an empty bind
  field reaches the program as `--bind ""` (`Client.EmptyBindFieldIsSent`).

## Model

| member | source | states |
|---|---|---|
| Strings.Trim | app/src/main/java/org/maoist2009/gui/vwarp/MainActivity.kt:183 | the result starts and ends with non-white-space, is no longer than the input, and is empty exactly when the input is all white space |
| Strings.TrimIdempotent | app/src/main/java/org/maoist2009/gui/vwarp/ConfigEditorActivity.kt:59 | trimming a trimmed string changes nothing |
| Strings.TrimSurrounded | app/src/main/java/org/maoist2009/gui/vwarp/MainActivity.kt:183 | any white space around a trimmed string is removed, and the string itself is kept intact |
| Strings.ContainsIff | app/src/main/java/org/maoist2009/gui/vwarp/MainActivity.kt:47 | the left-to-right search succeeds exactly when the phrase occurs at some index |
| StringOrder.Sort | app/src/main/java/org/maoist2009/gui/vwarp/MainActivity.kt:169 | the result is ascending and a permutation of the input |
| StringOrder.SortedUnique | app/src/main/java/org/maoist2009/gui/vwarp/MainActivity.kt:169 | two ascending arrangements of one multiset are equal |
| StringOrder.SortIgnoresOrder | app/src/main/java/org/maoist2009/gui/vwarp/MainActivity.kt:169 | the sorted list depends only on the elements, not on the order the set yields them |
| StringOrder.SortDistinct | app/src/main/java/org/maoist2009/gui/vwarp/MainActivity.kt:169 | sorting distinct names gives a strictly ascending list |
| ServiceArgs.SimpleArgs | app/src/main/java/org/maoist2009/gui/vwarp/VwarpService.kt:73-83 | the simple-mode list starts with `--masque`; it has 7 entries, or 9 exactly when a non-empty proxy is given |
| ServiceArgs.SimpleArgsReadBack | app/src/main/java/org/maoist2009/gui/vwarp/VwarpService.kt:73-83 | read back, the list gives the light preset, the bind address and endpoint (the defaults only when absent) and the proxy exactly when non-empty |
| ServiceArgs.Words | app/src/main/java/org/maoist2009/gui/vwarp/VwarpService.kt:86 | every token is non-empty and holds no regex white space, which on Android is the Unicode White_Space set (so U+3000 or U+00A0 separate arguments too) |
| ServiceArgs.WordsConcat | app/src/main/java/org/maoist2009/gui/vwarp/VwarpService.kt:86 | the tokens concatenated give the command line with its white space removed: no character is lost or added |
| ServiceArgs.WordsEmptyIffBlank | app/src/main/java/org/maoist2009/gui/vwarp/VwarpService.kt:86 | the split is empty exactly when the command line is blank |
| ServiceArgs.WordsOfJoin | app/src/main/java/org/maoist2009/gui/vwarp/VwarpService.kt:86 | splitting well-formed tokens joined by spaces gives back the same tokens |
| ServiceArgs.WordsOfPair | app/src/main/java/org/maoist2009/gui/vwarp/VwarpService.kt:86 | two space-free tokens around any one white-space character split into exactly those two arguments |
| ServiceArgs.WideSpaceSeparates | app/src/main/java/org/maoist2009/gui/vwarp/VwarpService.kt:86 | `--bind`, an ideographic space (U+3000) and an address split into two arguments, as they do on Android |
| ServiceArgs.SplitCmdline | app/src/main/java/org/maoist2009/gui/vwarp/VwarpService.kt:86 | the loop computes the same tokens as the recursive reference split |
| ServiceArgs.BuildArgs | app/src/main/java/org/maoist2009/gui/vwarp/VwarpService.kt:71-103 | mode 0 gives the simple list; mode 1 gives exactly the white-space split of the command line (`Words`), so well-formed tokens that concatenate to it; mode 2 gives one error line for no selection or the placeholder, one for a missing file, else `--config` and the file path; any other mode gives null with no line |
| ServiceArgs.ConfigArgsReadBack | app/src/main/java/org/maoist2009/gui/vwarp/VwarpService.kt:88-100 | in configuration mode with an existing selected file, the arguments carry no error and `--config` reads back exactly that file's path |
| Service.Terminate | app/src/main/java/org/maoist2009/gui/vwarp/VwarpService.kt:175-185 | the stopped child is dead with no unread output, its output and forwarded lines kept; every other child is untouched |
| Service.StopInstance | app/src/main/java/org/maoist2009/gui/vwarp/VwarpService.kt:173-188 | the flag becomes false, the registered child is terminated, the name is unregistered, and one "stopped" line is logged whether or not the name was registered |
| Service.StopEachRegistry | app/src/main/java/org/maoist2009/gui/vwarp/VwarpService.kt:191-192 | stopping a list of names unregisters exactly those names |
| Service.StopEachFlags | app/src/main/java/org/maoist2009/gui/vwarp/VwarpService.kt:191-192 | stopping a list of names clears exactly their flags |
| Service.StopEachLog | app/src/main/java/org/maoist2009/gui/vwarp/VwarpService.kt:191-192 | each stopped name is reported once, in list order |
| Service.StopEachChildren | app/src/main/java/org/maoist2009/gui/vwarp/VwarpService.kt:173-192 | stopping a list of names kills every child registered under one of them, clearing its unread output, and leaves every other child exactly as it was |
| Service.StopAllInstances | app/src/main/java/org/maoist2009/gui/vwarp/VwarpService.kt:190-194 | the registry ends empty, every registered name's flag is false, every other flag is kept as it was, every registered child is dead and every other child is untouched; the log gains one line per registered name and then one system line; the service's run state, threads and pid counter are unchanged |
| Service.OnDestroy | app/src/main/java/org/maoist2009/gui/vwarp/VwarpService.kt:229-233 | the registry ends empty, the service is gone, every registered name's flag is false and every other flag is kept, every registered child is dead, other children are untouched, and the log gains one line per registered name and then the system line |
| Service.StopCommand | app/src/main/java/org/maoist2009/gui/vwarp/VwarpService.kt:40-48 | a stop command for one name is exactly `stopInstance` of it (flag cleared, child killed, one stopped line); for `__ALL__` it is exactly `stopAllInstances`; the service keeps running exactly when something stays registered |
| Service.StartCommand | app/src/main/java/org/maoist2009/gui/vwarp/VwarpService.kt:50-69 | a start command stops the name first (its flag false, its registered child killed, every other flag and child unchanged), logs the build errors, and queues a launch exactly when arguments were built; nothing is registered yet |
| Service.OnStartCommand | app/src/main/java/org/maoist2009/gui/vwarp/VwarpService.kt:36-69 | the action defaults to start and the instance to `default`; a command never adds a name and always leaves its own name unregistered |
| Service.Cleanup | app/src/main/java/org/maoist2009/gui/vwarp/VwarpService.kt:146-150 | the thread's name leaves the registry and the flags, and the service stops when the registry is empty |
| Service.Spawn | app/src/main/java/org/maoist2009/gui/vwarp/VwarpService.kt:105-150 | the name ends registered with a true flag exactly when the binary exists and the spawn succeeds, then with a new live child and every other name, flag and child unchanged; a missing binary and a failed spawn log their lines and are exactly the cleanup of the name |
| Service.RelayLine | app/src/main/java/org/maoist2009/gui/vwarp/VwarpService.kt:133-137 | one iteration broadcasts the child's next unread line under the instance and consumes exactly that line |
| Service.RelayExit | app/src/main/java/org/maoist2009/gui/vwarp/VwarpService.kt:138-150 | after the loop the exit code is reported, the child is ended, the name leaves both maps and the thread finishes; every other name, flag and thread is unchanged |
| Service.RelayFail | app/src/main/java/org/maoist2009/gui/vwarp/VwarpService.kt:143-150 | a read exception is reported, the name leaves both maps and the thread finishes; every other name, flag, thread and every child, its own included, is unchanged |
| ServiceTrace.NextInv | app/src/main/java/org/maoist2009/gui/vwarp/VwarpService.kt:24-27 | every step keeps the invariant: a registered name maps to a live child started for that name, and its flag is true |
| ServiceTrace.RunInv | app/src/main/java/org/maoist2009/gui/vwarp/VwarpService.kt:24-27 | every state a run reaches from an invariant state keeps the invariant |
| ServiceTrace.ReachableRegisteredAlive | app/src/main/java/org/maoist2009/gui/vwarp/VwarpService.kt:27 | in every reachable state a listed running instance has a child that has been neither killed nor reaped, and a true flag (between atomic steps; see Left out) |
| ServiceTrace.RestartTerminatesPrevious | app/src/main/java/org/maoist2009/gui/vwarp/VwarpService.kt:59-61 | starting a registered name terminates its child before the new launch is queued |
| ServiceTrace.StartThenLaunchRegisters | app/src/main/java/org/maoist2009/gui/vwarp/VwarpService.kt:125-127 | a start with buildable arguments, followed by a successful spawn, leaves the name registered to a live child with a true flag |
| ServiceTrace.StopTwice | app/src/main/java/org/maoist2009/gui/vwarp/VwarpService.kt:173-188 | a second stop leaves the registry, flags and children as they were after the first, and logs one more line |
| ServiceTrace.RelayLines | app/src/main/java/org/maoist2009/gui/vwarp/VwarpService.kt:133-137 | k uninterrupted iterations consume exactly the first k unread lines and leave the flags, the registry and the threads as they were |
| ServiceTrace.RelayLinesLog | app/src/main/java/org/maoist2009/gui/vwarp/VwarpService.kt:133-137 | those k iterations broadcast exactly the first k unread lines, in order, each tagged with the relay's instance name |
| ServiceTrace.RelayForwardsInOrder | app/src/main/java/org/maoist2009/gui/vwarp/VwarpService.kt:131-137 | a relay running uninterrupted with its flag true forwards its child's whole remaining output in order, and afterwards can only end its loop |
| ServiceTrace.NextHistory | app/src/main/java/org/maoist2009/gui/vwarp/VwarpService.kt:125-137 | one step of any kind either reads the next line of a child into its forwarded lines and broadcasts it under the child's instance, or leaves the child alone or terminates it, or creates a new child with nothing read |
| ServiceTrace.RelayEventsAreRelayed | app/src/main/java/org/maoist2009/gui/vwarp/VwarpService.kt:131-137 | over any run, the events the relays of a child add to the log are exactly the lines newly forwarded from it, tagged with its instance, and its history stays a prefix of its output |
| ServiceTrace.RelayForwardsInProductionOrder | app/src/main/java/org/maoist2009/gui/vwarp/VwarpService.kt:131-137 | in every run from a fresh service, under any interleaving, the lines broadcast for a child are a prefix of its output in the order it was written; while it runs, forwarded plus unread lines are its whole output |
| ServiceTrace.StopHaltsRelay | app/src/main/java/org/maoist2009/gui/vwarp/VwarpService.kt:133 | once the name is stopped no further iteration of the relay loop starts: its flag check fails and the loop can only end |
| ServiceTrace.StaleRelayUnregistersNewer | app/src/main/java/org/maoist2009/gui/vwarp/VwarpService.kt:147-148 | a stale relay whose loop ends after a newer child of the same name registered unregisters that newer child while it still runs |
| ServiceTrace.PendingLaunchesOrphan | app/src/main/java/org/maoist2009/gui/vwarp/VwarpService.kt:126 | two pending launches of one name both register, and the first child keeps running without a registry entry |
| ServiceTrace.RelayErrorUnregistersRunning | app/src/main/java/org/maoist2009/gui/vwarp/VwarpService.kt:143-150 | after a read error the name is unregistered while the child registered under it keeps running |
| ServiceTrace.FailedLaunchUnregistersRunning | app/src/main/java/org/maoist2009/gui/vwarp/VwarpService.kt:105-150 | a launch that fails for a missing binary or a failed spawn unregisters a running child registered under the same name |
| ServiceTrace.StaleRelayReachable | app/src/main/java/org/maoist2009/gui/vwarp/VwarpService.kt:146-149 | a concrete five-step run from a fresh service ends with an empty registry while a child still runs |
| ConfigStore.Sanitize | app/src/main/java/org/maoist2009/gui/vwarp/ConfigEditorActivity.kt:65 | the result has the input's length, keeps every character of `[a-zA-Z0-9_-]` in place, and puts one underscore for each other character |
| ConfigStore.SanitizeFixesExactlySafe | app/src/main/java/org/maoist2009/gui/vwarp/ConfigEditorActivity.kt:65 | a name is left unchanged exactly when all its characters are safe |
| ConfigStore.SanitizeIdempotent | app/src/main/java/org/maoist2009/gui/vwarp/ConfigEditorActivity.kt:65 | sanitising twice equals sanitising once |
| ConfigStore.SanitizedNameIsPlain | app/src/main/java/org/maoist2009/gui/vwarp/ConfigEditorActivity.kt:72 | a saved name has no slash and no dot, and never equals the "no configuration" placeholder |
| ConfigStore.Open | app/src/main/java/org/maoist2009/gui/vwarp/ConfigEditorActivity.kt:26-35 | an existing name is opened with its file's content when the file exists; a new configuration starts from the template |
| ConfigStore.LoadTemplate | app/src/main/java/org/maoist2009/gui/vwarp/ConfigEditorActivity.kt:37-39 | the content becomes the template, and the name is kept |
| ConfigStore.TemplateThenSave | app/src/main/java/org/maoist2009/gui/vwarp/ConfigEditorActivity.kt:37-39 | after the template button, saving under a non-blank name writes the template under the sanitised name, and reopening that name shows the template |
| ConfigStore.Save | app/src/main/java/org/maoist2009/gui/vwarp/ConfigEditorActivity.kt:58-75 | a blank name changes nothing; otherwise the content is stored under the sanitised name, the original file is removed when the name differs, and no other file changes |
| ConfigStore.Delete | app/src/main/java/org/maoist2009/gui/vwarp/ConfigEditorActivity.kt:77-95 | a blank name just closes; a confirmed delete removes the trimmed name and the original name and nothing else; a cancel changes nothing |
| ConfigStore.SaveThenOpen | app/src/main/java/org/maoist2009/gui/vwarp/ConfigEditorActivity.kt:51-75 | reopening the saved name shows exactly the saved content |
| ConfigStore.SaveTwice | app/src/main/java/org/maoist2009/gui/vwarp/ConfigEditorActivity.kt:68-72 | saving again from the reopened editor leaves the directory unchanged |
| ConfigStore.RenameMoves | app/src/main/java/org/maoist2009/gui/vwarp/ConfigEditorActivity.kt:68-72 | renaming moves the content to the new name and removes the old file |
| ConfigStore.DeleteMissesSanitisedFile | app/src/main/java/org/maoist2009/gui/vwarp/ConfigEditorActivity.kt:88 | for a typed name that needed sanitising, a confirmed delete removes the raw name and leaves the saved file in place |
| Client.CurrentInstance | app/src/main/java/org/maoist2009/gui/vwarp/MainActivity.kt:182-184 | the name is never empty and never padded: it is the trimmed field, or `default` for a blank field |
| Client.CurrentInstanceIdempotent | app/src/main/java/org/maoist2009/gui/vwarp/MainActivity.kt:182-184 | typing the current name back into the field names the same instance |
| Client.CurrentInstanceIgnoresPadding | app/src/main/java/org/maoist2009/gui/vwarp/MainActivity.kt:183 | white space around a name does not change the instance it names |
| Client.IndexOf | app/src/main/java/org/maoist2009/gui/vwarp/MainActivity.kt:174 | the result is the first position of the name, or none exactly when it is absent |
| Client.LoadInstances | app/src/main/java/org/maoist2009/gui/vwarp/MainActivity.kt:166-176 | the list is non-empty and strictly ascending; it is `default` alone when the saved set is missing or empty, else a permutation of that set; the last instance is selected exactly when listed |
| Client.LoadInstancesIgnoresOrder | app/src/main/java/org/maoist2009/gui/vwarp/MainActivity.kt:167-169 | the list depends only on the saved set's elements |
| Client.Remove | app/src/main/java/org/maoist2009/gui/vwarp/MainActivity.kt:197 | the result's multiset loses exactly one copy of a present name; an absent name changes nothing |
| Client.RemoveDistinct | app/src/main/java/org/maoist2009/gui/vwarp/MainActivity.kt:197 | removing a name from a duplicate-free list leaves it duplicate-free and without that name |
| Client.Remember | app/src/main/java/org/maoist2009/gui/vwarp/MainActivity.kt:210-215 | a new name joins the saved and reloaded list; a known name changes nothing; the list stays what the saved set loads to |
| Client.StartVwarp | app/src/main/java/org/maoist2009/gui/vwarp/MainActivity.kt:207-237 | after a start the name is listed and is the last instance; the list gains only that name; only the list, preferences, status and log view change; the command carries the trimmed fields and the saved mode |
| Client.StartThenReopen | app/src/main/java/org/maoist2009/gui/vwarp/MainActivity.kt:210-216 | after a start, a freshly loaded screen lists the started name and selects it |
| Client.StartIntentNamesInstance | app/src/main/java/org/maoist2009/gui/vwarp/MainActivity.kt:218-220 | the command starts, under the current name, which is non-empty and listed |
| Client.Forget | app/src/main/java/org/maoist2009/gui/vwarp/MainActivity.kt:196-200 | the name leaves the list, every other listed name stays, and only `default` can appear new |
| Client.DeleteCurrentInstance | app/src/main/java/org/maoist2009/gui/vwarp/MainActivity.kt:186-205 | `default` cannot be deleted; a cancel changes nothing; a confirmed delete removes exactly the current name and resets the field to `default`, changing nothing else on the screen but the list and saved set |
| Client.DeleteLastLeavesDefault | app/src/main/java/org/maoist2009/gui/vwarp/MainActivity.kt:170 | deleting the only listed name leaves `default` as the single entry |
| Client.ReadyLineIff | app/src/main/java/org/maoist2009/gui/vwarp/MainActivity.kt:47 | a line reports readiness exactly when one of the two phrases occurs in it |
| Client.ReadyAnywhere | app/src/main/java/org/maoist2009/gui/vwarp/MainActivity.kt:47 | a phrase is recognised wherever it sits in the line |
| Client.UpdateRunning | app/src/main/java/org/maoist2009/gui/vwarp/MainActivity.kt:248-257 | the running line is rewritten; the status becomes idle when nothing runs and is kept otherwise; nothing else changes |
| Client.OnLog | app/src/main/java/org/maoist2009/gui/vwarp/MainActivity.kt:36-55 | a broadcast without a line is ignored; otherwise the `[instance] line` form (tag `sys` when absent) is appended to the buffer and the view, the running line is refreshed, and nothing but those and the status changes: the lists, selection, field and preferences are kept |
| Client.OnLogStatus | app/src/main/java/org/maoist2009/gui/vwarp/MainActivity.kt:47-52 | the status is idle whenever nothing runs, even after a readiness line; otherwise a readiness line shows ready for its instance, and any other line keeps the status |
| Client.ServiceEventShown | app/src/main/java/org/maoist2009/gui/vwarp/MainActivity.kt:38-44 | a service broadcast is shown as the last line, under the instance that sent it |
| Client.RunningTextReflectsRegistry | app/src/main/java/org/maoist2009/gui/vwarp/MainActivity.kt:249-250 | the running line reads "none" exactly when the registry is empty, unless the only instance is literally named after that word |
| Client.RunningTextAmbiguous | app/src/main/java/org/maoist2009/gui/vwarp/MainActivity.kt:250 | an instance named after the word for "none" is shown as nothing running |
| Client.LastIndexOf | app/src/main/java/org/maoist2009/gui/vwarp/MainActivity.kt:159-160 | the result is the last position of the character, or -1 exactly when it does not occur |
| Client.FileNameRoundTrip | app/src/main/java/org/maoist2009/gui/vwarp/MainActivity.kt:159-160 | the file of a configuration has extension `json` and its name as the stem, whatever dots the name holds |
| Client.JsonStems | app/src/main/java/org/maoist2009/gui/vwarp/MainActivity.kt:159-161 | every `.json` file contributes its stem, and every listed stem comes from a `.json` file |
| Client.LoadConfigs | app/src/main/java/org/maoist2009/gui/vwarp/MainActivity.kt:155-164 | the list is never empty; when the listing has `.json` files it is exactly their stems; when there are none or the directory cannot be listed it is the placeholder alone; the placeholder alone arises only then or from a file named after it |
| Client.JsonStemsOfFileNames | app/src/main/java/org/maoist2009/gui/vwarp/MainActivity.kt:159-161 | listing the files of a set of configurations gives back their names in order |
| Client.LoadConfigsOfStore | app/src/main/java/org/maoist2009/gui/vwarp/MainActivity.kt:155-164 | the configuration list shows exactly the stored names, or the placeholder for an empty directory |
| Client.PickConfig | app/src/main/java/org/maoist2009/gui/vwarp/MainActivity.kt:107-115 | picking a real configuration copies its name into the instance field; the placeholder and an out-of-range position change nothing |
| Client.PickInstance | app/src/main/java/org/maoist2009/gui/vwarp/MainActivity.kt:118-126 | picking an entry copies it into the instance field; an out-of-range position changes nothing |
| Client.PickedInstanceIsCurrent | app/src/main/java/org/maoist2009/gui/vwarp/MainActivity.kt:118-126 | picking a listed entry that is non-blank and has no surrounding white space makes exactly that entry the current instance |
| Client.PickedSavedConfigIsCurrent | app/src/main/java/org/maoist2009/gui/vwarp/MainActivity.kt:107-113 | a configuration saved from the editor, once picked, becomes the current instance name unchanged |
| Client.PickedConfigLaunches | app/src/main/java/org/maoist2009/gui/vwarp/MainActivity.kt:226 | in configuration mode an empty directory yields the placeholder, which the service refuses with one error line; any stored name picked from the list launches with its own file |
| Client.EmptyBindFieldIsSent | app/src/main/java/org/maoist2009/gui/vwarp/MainActivity.kt:222 | a blank bind field reaches the program as an empty `--bind` value, not the default address |

## Left out

- Processes, threads and timing: the two sleeps, `destroy()` versus `destroyForcibly()`, and the real output streams. A child is a record of the lines it writes, the lines forwarded so far and the lines not yet read. A kill drops the unread lines at once, so output buffered before a kill is never relayed.
- Interleaving: each relay step is atomic. The flag check and `readLine()` of one iteration are one step, and so are the loop end, `waitFor()` and the `finally` block. The launch thread's spawn is one step too: registering the process and setting its flag happen together. Each command is atomic as well: a whole `stopInstance`, `stopAllInstances` or start command happens between two relay steps, so no relay broadcast falls between its lines. In the code, a stopped relay usually logs its exit line during the 100 ms sleep inside `stopInstance`, before the "stopped" line.
- ServiceTrace.StopHaltsRelay: only says that no new iteration starts. The code checks the flag and then blocks in `readLine()`, so a relay already waiting there when the flag is cleared still broadcasts the one line it gets back; with the check and the read as one step, that in-flight line is not modelled.
- ServiceTrace.ReachableRegisteredAlive: holds only between the model's atomic steps, and its "alive" means not killed and not yet reaped. The code registers the process one statement before it sets the flag, so `getRunningInstances()` or a stop command arriving in between sees a registered name whose flag is not true, and a stop landing there is followed by the flag being set for a name no longer registered. A child in the model never exits on its own: it dies only when killed or when its relay ends. In the code, a child that exits by itself stays registered until its relay reads end of stream, waits for it and runs `finally`, which can take arbitrarily long while a grandchild holds the pipe open.
- `getExecutablePath` and `getProcessId` are parameters of `Service.Spawn`: an optional path, and the pid that reflection reports (or -1). These are the file system and reflection, which the model cannot see.
- Broadcasts are the `log` sequence of the service state. Delivery order to the screen, and a screen that is not registered for broadcasts, are not modelled.
- The wake lock, the notification channel and the foreground notification are not modelled: they are platform resources with no effect on the registry.
- `stopSelf()` is the `serviceAlive` bit, which turns false exactly when the registry empties after a stop command or a thread's cleanup. `onDestroy` then runs `stopAllInstances` and logs the system line; `Service.OnDestroy` models that call, but the model does not put it in sequence after `serviceAlive` turning false, because the platform decides when it runs.
- Preferences are the `Client.Prefs` record. The saved string set is a duplicate-free sequence in arbitrary order, and the results are proved independent of that order.
- Files are maps from configuration stem to content, and a directory listing is a sequence of file names. I/O failures on write or delete, and names that would leave the directory, are not modelled.
- Sorting uses code-point order, while Kotlin compares UTF-16 units. The two differ only for names that mix supplementary characters with characters from U+E000 to U+FFFF.
- Colours, visibility of the mode panels, toasts other than those returned, the help link, saving the log to a file, and the permission and battery-optimisation prompts are screen or device I/O and are not modelled.
- The stop button's delayed refresh of the running line is not modelled. `Client.UpdateRunning` is the refresh itself.
- The layout's initial field texts are unknown, so they are parameters of `ConfigStore.Open`.
- Client.DeleteCurrentInstance: the field ends as "default", as the code sets it last. The reload installs a new adapter and selection first, and the instance spinner's listener may fire on the next layout pass and overwrite the field with the selected entry; that framework timing is not modelled.
- Client.StartVwarp: likewise, the listener firing after the reload's `setSelection` is not modelled; the field keeps the text it had.

=== FILE: client.dfy ===
/** The main screen: the remembered instance list, the start and delete
    buttons, the rendering of the service's log broadcasts, the running
    line, and the list of configuration files. */
module Client {
  import opened Wrappers
  import opened Strings
  import opened StringOrder
  import opened Messages
  import opened ServiceArgs
  import Service
  import ConfigStore

  /** The tag of a broadcast that carries no instance. */
  const UntaggedInstance: string := "sys"
  const ConnectivityMarker: string := "connectivity test passed"
  const ServingMarker: string := "serving proxy"
  const IdleStatus: string := "状态: 未运行"
  const RunningPrefix: string := "运行中: "
  const NothingRunning: string := "无"
  const CannotDeleteDefaultToast: string := "无法删除默认实例"
  const DeletedToast: string := "已删除"

  // ---------------------------------------------------------------------
  // The instance name

  /** `getCurrentInstance()`: the trimmed instance field, or `default` when
      it is blank. */
  function CurrentInstance(field: string): (r: string)
    ensures r != [] && IsTrimmed(r)
    ensures AllWhitespace(field) ==> r == Service.DefaultInstance
    ensures !AllWhitespace(field) ==> r == Trim(field)
  {
    var t := Trim(field);
    if t == [] then DefaultIsTrimmed(); Service.DefaultInstance else t
  }

  lemma DefaultIsTrimmed()
    ensures Service.DefaultInstance != [] && IsTrimmed(Service.DefaultInstance)
  {
    assert Service.DefaultInstance[0] == 'd' && Service.DefaultInstance[|Service.DefaultInstance| - 1] == 't';
  }

  /** Typing the current name back into the field names the same instance. */
  lemma CurrentInstanceIdempotent(field: string)
    ensures CurrentInstance(CurrentInstance(field)) == CurrentInstance(field)
  {
    TrimIdempotent(field);
    var r := CurrentInstance(field);
    if AllWhitespace(field) {
      assert !IsWhitespace(r[0]);
    }
  }

  /** White space around a name never changes the instance it names. */
  lemma CurrentInstanceIgnoresPadding(a: string, name: string, b: string)
    requires AllWhitespace(a) && AllWhitespace(b)
    requires name != [] && IsTrimmed(name)
    ensures CurrentInstance(a + name + b) == name
  {
    TrimSurrounded(a, name, b);
  }

  // ---------------------------------------------------------------------
  // The remembered instance list

  /** The preferences the screen reads: the saved instance set (a set, so
      duplicate-free, in no particular order), the last started instance
      and the mode. `None` is a missing key. */
  datatype Prefs = Prefs(instances: Option<seq<string>>, lastInstance: Option<string>, mode: Option<int>)

  predicate PrefsOk(p: Prefs) {
    p.instances.Some? ==> Distinct(p.instances.value)
  }

  /** `List.indexOf`: the first position of `x`. */
  function IndexOf(s: seq<string>, x: string): (r: Option<nat>)
    ensures r.Some? <==> x in s
    ensures r.Some? ==> r.value < |s| && s[r.value] == x && x !in s[..r.value]
    decreases |s|
  {
    if s == [] then None
    else if s[0] == x then Some(0)
    else
      var rest := IndexOf(s[1..], x);
      if rest.None? then None
      else
        assert s[..rest.value + 1] == [s[0]] + s[1..][..rest.value];
        Some(rest.value + 1)
  }

  /** What `loadInstances()` shows: the list and the position it selects. */
  datatype Loaded = Loaded(list: seq<string>, selection: Option<nat>)

  lemma StrictlySortedDistinct(s: seq<string>)
    requires StrictlySorted(s)
    ensures Distinct(s)
  {
    forall i, j | 0 <= i < j < |s| ensures s[i] != s[j] {
      LessIrreflexive(s[i]);
    }
  }

  /** `loadInstances()`: the saved set in ascending order, or just `default`
      when the set is missing or empty; the last started instance is
      selected when it is in the list. */
  function LoadInstances(p: Prefs): (r: Loaded)
    requires PrefsOk(p)
    ensures |r.list| > 0 && StrictlySorted(r.list) && Distinct(r.list)
    ensures p.instances.None? || p.instances.value == [] ==> r.list == [Service.DefaultInstance]
    ensures p.instances.Some? && p.instances.value != [] ==> multiset(r.list) == multiset(p.instances.value)
    ensures var last := p.lastInstance.GetOr(Service.DefaultInstance);
      && (r.selection.Some? <==> last in r.list)
      && (r.selection.Some? ==> r.selection.value < |r.list| && r.list[r.selection.value] == last)
  {
    var saved := p.instances.GetOr([Service.DefaultInstance]);
    var list := if saved == [] then [Service.DefaultInstance] else (SortDistinct(saved); Sort(saved));
    StrictlySortedDistinct(list);
    Loaded(list, IndexOf(list, p.lastInstance.GetOr(Service.DefaultInstance)))
  }

  /** The list shown depends only on the saved set, not on the order the
      preferences happen to return it in. */
  lemma LoadInstancesIgnoresOrder(p: Prefs, q: Prefs)
    requires PrefsOk(p) && PrefsOk(q)
    requires p.instances.Some? && q.instances.Some?
    requires multiset(p.instances.value) == multiset(q.instances.value)
    ensures LoadInstances(p).list == LoadInstances(q).list
  {
    SortIgnoresOrder(p.instances.value, q.instances.value);
  }

  /** `List.remove(x)`: drops the first occurrence of `x`, if any. */
  function Remove(s: seq<string>, x: string): (r: seq<string>)
    ensures x in s ==> multiset(r) == multiset(s) - multiset{x}
    ensures x !in s ==> r == s
    decreases |s|
  {
    if s == [] then []
    else if s[0] == x then
      assert s == [s[0]] + s[1..];
      s[1..]
    else
      assert s == [s[0]] + s[1..];
      [s[0]] + Remove(s[1..], x)
  }

  /** From a duplicate-free list, removing a name removes it entirely. */
  lemma RemoveDistinct(s: seq<string>, x: string)
    requires Distinct(s)
    ensures x !in Remove(s, x)
    ensures Distinct(Remove(s, x))
  {
    var r := Remove(s, x);
    if x in s {
      DistinctHasNoDuplicates(s, x);
      assert multiset(r)[x] == 0;
      forall i, j | 0 <= i < j < |r| ensures r[i] != r[j] {
        if r[i] == r[j] {
          TwoOccurrences(r, i, j);
          assert multiset(s)[r[i]] >= 2;
          DistinctHasNoDuplicates(s, r[i]);
        }
      }
    }
  }

  // ---------------------------------------------------------------------
  // The screen

  datatype Screen = Screen(
    prefs: Prefs,
    instances: seq<string>,      // the instance spinner's entries
    selection: Option<nat>,      // the entry last selected by `loadInstances`
    instanceField: string,
    status: string,
    runningText: string,
    logBuffer: seq<string>,      // the lines kept for saving
    logView: seq<string>)        // the lines of the log view

  /** The spinner shows what the preferences hold: the screen's own list is
      always the one `loadInstances()` would show now. */
  predicate Consistent(c: Screen) {
    PrefsOk(c.prefs) && c.instances == LoadInstances(c.prefs).list
  }

  /** The fields of the form a start command is built from. */
  datatype Form = Form(bind: string, endpoint: string, proxy: string, cmdline: string, configChoice: Option<string>)

  function StartingStatus(name: string): string { "状态: 启动中... [" + name + "]" }
  function StartingBanner(name: string): string { "--- 启动实例: " + name + " ---" }

  /** The selection does not change which names are listed. */
  lemma ListIgnoresLast(p: Prefs, last: Option<string>)
    requires PrefsOk(p)
    ensures LoadInstances(p.(lastInstance := last)).list == LoadInstances(p).list
  {
  }

  /** The "save new instance" part of `startVwarp()`: a name not yet in the
      list is appended, the list is saved as a set and then reloaded. */
  function Remember(c: Screen, name: string): (r: Screen)
    requires Consistent(c)
    ensures Consistent(r) && name in r.instances
    ensures name in c.instances ==> r == c
    ensures name !in c.instances ==>
      && multiset(r.instances) == multiset(c.instances) + multiset{name}
      && r.prefs == c.prefs.(instances := Some(c.instances + [name]))
      && r == c.(prefs := r.prefs, instances := r.instances, selection := r.selection)
  {
    if name in c.instances then c
    else
      var list := c.instances + [name];
      assert Distinct(list);
      var p := c.prefs.(instances := Some(list));
      var loaded := LoadInstances(p);
      assert name in multiset(loaded.list);
      c.(prefs := p, instances := loaded.list, selection := loaded.selection)
  }

  /** The command `startVwarp()` sends for the instance `name`. */
  function StartIntent(name: string, mode: int, form: Form): Intent {
    Intent(Some(Service.DefaultAction), Some(name), Some(mode),
           Some(Trim(form.bind)), Some(Trim(form.endpoint)), Some(Trim(form.proxy)),
           Some(Trim(form.cmdline)), form.configChoice)
  }

  /** `startVwarp()`: a new name joins the list, which is saved and
      reloaded; the name becomes the last started instance; and the start
      command carries the trimmed form fields. */
  function StartVwarp(c: Screen, form: Form): (r: (Screen, Intent))
    requires Consistent(c)
    ensures Consistent(r.0)
    ensures CurrentInstance(c.instanceField) in r.0.instances
    ensures CurrentInstance(c.instanceField) in c.instances ==> r.0.instances == c.instances
    ensures CurrentInstance(c.instanceField) !in c.instances ==>
      multiset(r.0.instances) == multiset(c.instances) + multiset{CurrentInstance(c.instanceField)}
    ensures r.0.prefs.lastInstance == Some(CurrentInstance(c.instanceField))
    ensures r.0.prefs.mode == c.prefs.mode && r.0.instanceField == c.instanceField
    ensures r.0.status == StartingStatus(CurrentInstance(c.instanceField))
    ensures r.0.logView == c.logView + [StartingBanner(CurrentInstance(c.instanceField))]
    ensures r.0.logBuffer == c.logBuffer
    ensures r.0 == c.(prefs := r.0.prefs, instances := r.0.instances, selection := r.0.selection,
                      status := r.0.status, logView := r.0.logView)
    ensures r.1 == StartIntent(CurrentInstance(c.instanceField), c.prefs.mode.GetOr(0), form)
  {
    var name := CurrentInstance(c.instanceField);
    var c1 := Remember(c, name);
    ListIgnoresLast(c1.prefs, Some(name));
    var c2 := c1.(prefs := c1.prefs.(lastInstance := Some(name)),
                  status := StartingStatus(name),
                  logView := c1.logView + [StartingBanner(name)]);
    (c2, StartIntent(name, c.prefs.mode.GetOr(0), form))
  }

  /** After a start, a fresh screen lists the started instance and selects it. */
  lemma StartThenReopen(c: Screen, form: Form)
    requires Consistent(c)
    ensures var p := StartVwarp(c, form).0.prefs;
      var loaded := LoadInstances(p);
      && loaded.selection.Some?
      && loaded.list[loaded.selection.value] == CurrentInstance(c.instanceField)
  {
    var r := StartVwarp(c, form).0;
    assert CurrentInstance(c.instanceField) in LoadInstances(r.prefs).list;
  }

  /** The service never receives a blank instance name from the screen, and
      it starts under exactly the name the screen remembered. */
  lemma StartIntentNamesInstance(c: Screen, form: Form)
    requires Consistent(c)
    ensures var r := StartVwarp(c, form);
      && Service.ActionOf(r.1) != Service.StopAction
      && Service.InstanceOf(r.1) == CurrentInstance(c.instanceField)
      && Service.InstanceOf(r.1) in r.0.instances
      && Service.InstanceOf(r.1) != []
  {
  }

  /** What a press of the delete button leaves: the screen and a toast. */
  datatype Deleted = Deleted(screen: Screen, toast: Option<string>)

  /** The confirmed part of `deleteCurrentInstance()`: the name leaves the
      list, the list is saved as a set and reloaded, falling back to
      `default` when it ran empty. */
  function Forget(c: Screen, name: string): (r: Screen)
    requires Consistent(c) && name != Service.DefaultInstance
    ensures Consistent(r)
    ensures name !in r.instances
    ensures forall n | n in c.instances && n != name :: n in r.instances
    ensures forall n | n in r.instances :: n in c.instances || n == Service.DefaultInstance
    ensures r.prefs.lastInstance == c.prefs.lastInstance && r.prefs.mode == c.prefs.mode
    ensures r == c.(prefs := r.prefs, instances := r.instances, selection := r.selection)
  {
    var list := Remove(c.instances, name);
    RemoveDistinct(c.instances, name);
    var p := c.prefs.(instances := Some(list));
    var loaded := LoadInstances(p);
    RemoveKeepsOthers(c.instances, name);
    ReloadedMembers(p);
    c.(prefs := p, instances := loaded.list, selection := loaded.selection)
  }

  lemma RemoveKeepsOthers(s: seq<string>, x: string)
    ensures forall n | n in s && n != x :: n in Remove(s, x)
    ensures forall n | n in Remove(s, x) :: n in s
  {
    var r := Remove(s, x);
    forall n | n in s && n != x ensures n in r {
      assert n in multiset(s);
      if x in s {
        assert n in multiset(r);
      }
    }
    forall n | n in r ensures n in s {
      assert n in multiset(r);
    }
  }

  /** The reloaded list holds the saved names, or `default` alone. */
  lemma ReloadedMembers(p: Prefs)
    requires PrefsOk(p) && p.instances.Some?
    ensures forall n | n in p.instances.value :: n in LoadInstances(p).list
    ensures forall n | n in LoadInstances(p).list :: n in p.instances.value || n == Service.DefaultInstance
  {
    var list := LoadInstances(p).list;
    forall n | n in p.instances.value ensures n in list {
      assert n in multiset(p.instances.value);
    }
    forall n | n in list ensures n in p.instances.value || n == Service.DefaultInstance {
      if p.instances.value != [] {
        assert n in multiset(list);
      }
    }
  }

  /** `deleteCurrentInstance()`: `default` cannot be deleted; otherwise, once
      the dialog is confirmed, the name leaves the list and the field is
      reset to `default`. A cancelled dialog changes nothing. */
  function DeleteCurrentInstance(c: Screen, confirmed: bool): (r: Deleted)
    requires Consistent(c)
    ensures Consistent(r.screen)
    ensures CurrentInstance(c.instanceField) == Service.DefaultInstance ==> r == Deleted(c, Some(CannotDeleteDefaultToast))
    ensures CurrentInstance(c.instanceField) != Service.DefaultInstance && !confirmed ==> r == Deleted(c, None)
    ensures CurrentInstance(c.instanceField) != Service.DefaultInstance && confirmed ==>
      && r.toast == Some(DeletedToast)
      && CurrentInstance(c.instanceField) !in r.screen.instances
      && (forall n | n in c.instances && n != CurrentInstance(c.instanceField) :: n in r.screen.instances)
      && (forall n | n in r.screen.instances :: n in c.instances || n == Service.DefaultInstance)
      && r.screen.instanceField == Service.DefaultInstance
      && r.screen.prefs.lastInstance == c.prefs.lastInstance
      && r.screen.prefs.mode == c.prefs.mode
      && r.screen == c.(prefs := r.screen.prefs, instances := r.screen.instances, selection := r.screen.selection,
                        instanceField := Service.DefaultInstance)
  {
    var name := CurrentInstance(c.instanceField);
    if name == Service.DefaultInstance then Deleted(c, Some(CannotDeleteDefaultToast))
    else if !confirmed then Deleted(c, None)
    else Deleted(Forget(c, name).(instanceField := Service.DefaultInstance), Some(DeletedToast))
  }

  /** Deleting the only remembered name leaves `default` behind. */
  lemma DeleteLastLeavesDefault(c: Screen)
    requires Consistent(c)
    requires c.instances == [CurrentInstance(c.instanceField)]
    requires CurrentInstance(c.instanceField) != Service.DefaultInstance
    ensures DeleteCurrentInstance(c, true).screen.instances == [Service.DefaultInstance]
  {
    var name := CurrentInstance(c.instanceField);
    assert Remove(c.instances, name) == [];
  }

  // ---------------------------------------------------------------------
  // The log broadcasts and the running line

  /** The form one broadcast takes in the log. */
  function LogLine(instance: string, line: string): string {
    "[" + instance + "] " + line
  }

  function ReadyStatus(instance: string): string { "状态: 已就绪 [" + instance + "]" }

  /** A line that reports the proxy ready. */
  predicate IsReadyLine(line: string) {
    Contains(line, ConnectivityMarker) || Contains(line, ServingMarker)
  }

  /** A line reports readiness exactly when one of the two phrases occurs in it. */
  lemma ReadyLineIff(line: string)
    ensures IsReadyLine(line) <==>
      (exists i :: OccursAt(line, ConnectivityMarker, i)) || (exists i :: OccursAt(line, ServingMarker, i))
  {
    ContainsIff(line, ConnectivityMarker);
    ContainsIff(line, ServingMarker);
  }

  /** The proxy's own messages are recognised wherever the phrase sits. */
  lemma ReadyAnywhere(a: string, b: string)
    ensures IsReadyLine(a + ConnectivityMarker + b)
    ensures IsReadyLine(a + ServingMarker + b)
  {
    ContainsInfix(a, ConnectivityMarker, b);
    ContainsInfix(a, ServingMarker, b);
  }

  /** The text of the running line. */
  function RunningText(running: seq<string>): string {
    RunningPrefix + (if running == [] then NothingRunning else Join(running, ", "))
  }

  /** `updateRunningUI()`: the running line is rewritten, and the status
      falls back to idle when nothing runs; otherwise it is kept. */
  function UpdateRunning(c: Screen, running: seq<string>): (r: Screen)
    ensures r.runningText == RunningText(running)
    ensures running == [] ==> r.status == IdleStatus
    ensures running != [] ==> r.status == c.status
    ensures r == c.(runningText := r.runningText, status := r.status)
  {
    c.(runningText := RunningText(running), status := if running == [] then IdleStatus else c.status)
  }

  /** `logReceiver.onReceive`: a broadcast without a line is ignored;
      otherwise the tagged line is kept and shown, a readiness line marks the
      instance ready, and the running line is refreshed. */
  function OnLog(c: Screen, line: Option<string>, instance: Option<string>, running: seq<string>): (r: Screen)
    ensures line.None? ==> r == c
    ensures line.Some? ==>
      var tagged := LogLine(instance.GetOr(UntaggedInstance), line.value);
      && r.logBuffer == c.logBuffer + [tagged]
      && r.logView == c.logView + [tagged]
      && r.runningText == RunningText(running)
      && r == c.(logBuffer := r.logBuffer, logView := r.logView, runningText := r.runningText, status := r.status)
  {
    match line
    case None => c
    case Some(text) =>
      var inst := instance.GetOr(UntaggedInstance);
      var tagged := LogLine(inst, text);
      var shown := c.(logBuffer := c.logBuffer + [tagged], logView := c.logView + [tagged],
                      status := if IsReadyLine(text) then ReadyStatus(inst) else c.status);
      UpdateRunning(shown, running)
  }

  /** The status after a broadcast: idle whenever nothing runs, even right
      after a readiness line; otherwise ready for the broadcast's instance
      after a readiness line, and unchanged after any other line. */
  lemma OnLogStatus(c: Screen, line: string, instance: Option<string>, running: seq<string>)
    ensures var r := OnLog(c, Some(line), instance, running);
      && (running == [] ==> r.status == IdleStatus)
      && (running != [] && IsReadyLine(line) ==> r.status == ReadyStatus(instance.GetOr(UntaggedInstance)))
      && (running != [] && !IsReadyLine(line) ==> r.status == c.status)
  {
  }

  /** A broadcast from the service is shown under the instance that sent it. */
  lemma ServiceEventShown(c: Screen, e: LogEvent, running: seq<string>)
    ensures var r := OnLog(c, Some(e.line), Some(e.instance), running);
      r.logView[|r.logView| - 1] == LogLine(e.instance, e.line)
  {
  }

  /** The running line says nothing runs exactly when the registry is empty,
      as long as no instance is literally named after the word for "none". */
  lemma RunningTextReflectsRegistry(st: Service.State, running: seq<string>)
    requires Service.IsRunningList(st, running)
    requires running != [NothingRunning]
    ensures RunningText(running) == RunningPrefix + NothingRunning <==> st.processes == map[]
  {
    if running != [] {
      assert running[0] in st.processes.Keys;
      var j := Join(running, ", ");
      assert RunningText(running)[|RunningPrefix|..] == j;
      assert (RunningPrefix + NothingRunning)[|RunningPrefix|..] == NothingRunning;
      if |running| == 1 {
        assert running == [running[0]];
      } else {
        assert j == running[0] + ", " + Join(running[1..], ", ");
        assert |j| >= 2;
      }
    } else {
      assert st.processes.Keys == {};
    }
  }

  /** An instance named after the word for "none" is shown as nothing running. */
  lemma RunningTextAmbiguous()
    ensures RunningText([NothingRunning]) == RunningText([])
  {
  }

  // ---------------------------------------------------------------------
  // The configuration list

  /** `lastIndexOf(c)`, or -1 when `c` does not occur. */
  function LastIndexOf(s: string, c: char): (r: int)
    ensures -1 <= r < |s|
    ensures r == -1 <==> c !in s
    ensures r >= 0 ==> s[r] == c && c !in s[r + 1..]
    decreases |s|
  {
    if s == [] then -1
    else if s[|s| - 1] == c then |s| - 1
    else
      var r := LastIndexOf(s[..|s| - 1], c);
      assert s == s[..|s| - 1] + [s[|s| - 1]];
      if r >= 0 then
        assert s[r + 1..] == s[..|s| - 1][r + 1..] + [s[|s| - 1]];
        r
      else r
  }

  /** `File.extension`: the part after the last dot, or "" without a dot. */
  function Extension(fileName: string): string {
    var i := LastIndexOf(fileName, '.');
    if i < 0 then "" else fileName[i + 1..]
  }

  /** `File.nameWithoutExtension`: the part before the last dot, or the
      whole name without a dot. */
  function Stem(fileName: string): string {
    var i := LastIndexOf(fileName, '.');
    if i < 0 then fileName else fileName[..i]
  }

  /** The file a configuration is stored in. */
  function FileName(name: string): string { name + ".json" }

  /** A configuration's file is listed under its own name, whatever dots the
      name holds. */
  lemma FileNameRoundTrip(name: string)
    ensures Extension(FileName(name)) == "json"
    ensures Stem(FileName(name)) == name
  {
    var f := FileName(name);
    var i := LastIndexOf(f, '.');
    assert f[|name|] == '.';
    assert f[|name| + 1..] == "json";
    assert i == |name|;
  }

  /** The stems of the `.json` files of a listing, in listing order. */
  function JsonStems(files: seq<string>): (r: seq<string>)
    ensures |r| <= |files|
    ensures forall f | f in files && Extension(f) == "json" :: Stem(f) in r
    ensures forall x | x in r :: exists f | f in files :: Extension(f) == "json" && Stem(f) == x
    decreases |files|
  {
    if files == [] then []
    else
      var rest := JsonStems(files[1..]);
      if Extension(files[0]) == "json" then [Stem(files[0])] + rest else rest
  }

  /** `loadConfigs()`: the stems of the `.json` files, or the placeholder
      when there are none or the directory cannot be listed (`None`). */
  function LoadConfigs(listing: Option<seq<string>>): (r: seq<string>)
    ensures |r| > 0
    ensures listing.Some? && JsonStems(listing.value) != [] ==> r == JsonStems(listing.value)
    ensures listing.None? || JsonStems(listing.value) == [] ==> r == [NoConfigPlaceholder]
    ensures r == [NoConfigPlaceholder] ==>
      listing.None? || JsonStems(listing.value) == [] || JsonStems(listing.value) == [NoConfigPlaceholder]
  {
    var stems := JsonStems(listing.GetOr([]));
    if stems == [] then [NoConfigPlaceholder] else stems
  }

  /** The files of a configuration directory, one per name in `order`. */
  function FileNames(order: seq<string>): (r: seq<string>)
    ensures |r| == |order|
    ensures forall i | 0 <= i < |order| :: r[i] == FileName(order[i])
  {
    seq(|order|, i requires 0 <= i < |order| => FileName(order[i]))
  }

  lemma {:induction false} JsonStemsOfFileNames(order: seq<string>)
    ensures JsonStems(FileNames(order)) == order
    decreases |order|
  {
    if order != [] {
      FileNameRoundTrip(order[0]);
      assert FileNames(order)[1..] == FileNames(order[1..]);
      JsonStemsOfFileNames(order[1..]);
    }
  }

  /** Listing a directory of configurations shows exactly their names, or
      the placeholder when there are none. */
  lemma LoadConfigsOfStore(order: seq<string>)
    ensures LoadConfigs(Some(FileNames(order))) == (if order == [] then [NoConfigPlaceholder] else order)
  {
    JsonStemsOfFileNames(order);
  }

  /** The configuration spinner's listener: picking a real configuration
      copies its name into the instance field; the placeholder and a
      position outside the list leave the field alone. */
  function PickConfig(c: Screen, configList: seq<string>, pos: int): (r: Screen)
    ensures 0 <= pos < |configList| && configList[pos] != NoConfigPlaceholder ==>
      r == c.(instanceField := configList[pos])
    ensures !(0 <= pos < |configList|) || configList[pos] == NoConfigPlaceholder ==> r == c
  {
    if 0 <= pos < |configList| && configList[pos] != NoConfigPlaceholder then c.(instanceField := configList[pos])
    else c
  }

  /** The instance spinner's listener: picking an entry copies it into the field. */
  function PickInstance(c: Screen, pos: int): (r: Screen)
    ensures 0 <= pos < |c.instances| ==> r == c.(instanceField := c.instances[pos])
    ensures !(0 <= pos < |c.instances|) ==> r == c
  {
    if 0 <= pos < |c.instances| then c.(instanceField := c.instances[pos]) else c
  }

  /** Picking an entry of the instance list names exactly that instance. */
  lemma PickedInstanceIsCurrent(c: Screen, pos: int)
    requires 0 <= pos < |c.instances|
    requires c.instances[pos] != [] && IsTrimmed(c.instances[pos])
    ensures CurrentInstance(PickInstance(c, pos).instanceField) == c.instances[pos]
  {
    CurrentInstanceIgnoresPadding([], c.instances[pos], []);
    assert [] + c.instances[pos] + [] == c.instances[pos];
  }

  /** A configuration saved from the editor, once picked, becomes the
      instance name as it is: a sanitised name needs no trimming. */
  lemma PickedSavedConfigIsCurrent(c: Screen, typed: string)
    requires Trim(typed) != []
    ensures var name := ConfigStore.Sanitize(Trim(typed));
      CurrentInstance(PickConfig(c, [name], 0).instanceField) == name
  {
    var name := ConfigStore.Sanitize(Trim(typed));
    assert |name| == |Trim(typed)| > 0;
    ConfigStore.SafeNameIsTrimmed(name);
    ConfigStore.SanitizedNameIsPlain(Trim(typed));
    assert [name][0] != NoConfigPlaceholder;
    assert PickConfig(c, [name], 0).instanceField == name;
    CurrentInstanceIgnoresPadding([], name, []);
    assert [] + name + [] == name;
  }

  /** Starting in configuration mode with whatever the list offers: an
      empty directory offers only the placeholder, which the service
      refuses with one error line; otherwise every offered name launches
      with its own file. (A file literally named after the placeholder, which
      the editor cannot create, would be refused too.) */
  lemma PickedConfigLaunches(c: Screen, form: Form, configs: map<string, string>, order: seq<string>, pos: nat, filesDir: string)
    requires Consistent(c) && c.prefs.mode == Some(2)
    requires Service.IsEnumeration(order, configs.Keys) && NoConfigPlaceholder !in configs
    requires pos < |LoadConfigs(Some(FileNames(order)))|
    requires form.configChoice == Some(LoadConfigs(Some(FileNames(order)))[pos])
    ensures var intent := StartVwarp(c, form).1;
      var name := CurrentInstance(c.instanceField);
      var built := BuildArgs(intent, Service.ModeOf(intent), Service.InstanceOf(intent), configs, filesDir);
      && (order == [] ==> built == Built(None, [LogEvent(name, NoConfigSelectedError)]))
      && (order != [] ==> built == Built(Some(["--config", ConfigPath(filesDir, order[pos])]), []))
  {
    var name := CurrentInstance(c.instanceField);
    var intent := StartVwarp(c, form).1;
    assert intent == StartIntent(name, 2, form);
    ChoiceBuilds(intent, name, configs, order, pos, filesDir);
  }

  /** The configuration part of the above, for any command that names the
      picked entry. */
  lemma ChoiceBuilds(intent: Intent, name: string, configs: map<string, string>, order: seq<string>, pos: nat, filesDir: string)
    requires Service.IsEnumeration(order, configs.Keys) && NoConfigPlaceholder !in configs
    requires pos < |LoadConfigs(Some(FileNames(order)))|
    requires intent.configName == Some(LoadConfigs(Some(FileNames(order)))[pos])
    ensures var built := BuildArgs(intent, 2, name, configs, filesDir);
      && (order == [] ==> built == Built(None, [LogEvent(name, NoConfigSelectedError)]))
      && (order != [] ==> built == Built(Some(["--config", ConfigPath(filesDir, order[pos])]), []))
  {
    LoadConfigsOfStore(order);
    if order != [] {
      assert order[pos] in configs.Keys;
    }
  }

  /** An empty bind field is sent as an empty string, which the service
      passes on instead of its default address. */
  lemma EmptyBindFieldIsSent(c: Screen, form: Form, configs: map<string, string>, filesDir: string)
    requires Consistent(c) && c.prefs.mode.GetOr(0) == 0
    requires AllWhitespace(form.bind)
    ensures var intent := StartVwarp(c, form).1;
      var built := BuildArgs(intent, 0, CurrentInstance(c.instanceField), configs, filesDir);
      built.args.Some? && Lookup(built.args.value, "--bind") == Some("")
  {
    var intent := StartVwarp(c, form).1;
    SimpleArgsReadBack(intent.bind, intent.endpoint, intent.proxy);
  }
}

=== FILE: config_store.dfy ===
/** The configuration editor: the configuration directory is a map from a
    file's stem (the name before `.json`) to its content, and opening,
    saving and deleting are transitions on that map. */
module ConfigStore {
  import opened Wrappers
  import opened Strings
  import opened ServiceArgs

  /** The template the editor starts a new configuration with. */
  const DefaultTemplate: string :=
    "{\n  \"endpoint\": \"162.159.198.2:443\",\n  \"bind\": \"127.0.0.1:1077\",\n  \"masque\": true,\n  \"noize_preset\": \"light\"\n}"

  const EnterNameToast: string := "请输入名称"
  const SavedToastPrefix: string := "已保存: "
  const DeletedToast: string := "已删除"

  // ---------------------------------------------------------------------
  // File names

  /** A character of the class `[a-zA-Z0-9_-]`. */
  predicate IsSafeChar(c: char) {
    ('a' <= c <= 'z') || ('A' <= c <= 'Z') || ('0' <= c <= '9') || c == '_' || c == '-'
  }

  predicate AllSafe(s: string) {
    forall i | 0 <= i < |s| :: IsSafeChar(s[i])
  }

  /** `name.replace(Regex("[^a-zA-Z0-9_-]"), "_")`: every character outside
      the class becomes one underscore, and the others stay where they are. */
  function Sanitize(name: string): (r: string)
    ensures |r| == |name|
    ensures AllSafe(r)
    ensures forall i | 0 <= i < |name| :: IsSafeChar(name[i]) ==> r[i] == name[i]
    ensures forall i | 0 <= i < |name| :: !IsSafeChar(name[i]) ==> r[i] == '_'
  {
    seq(|name|, i requires 0 <= i < |name| => if IsSafeChar(name[i]) then name[i] else '_')
  }

  /** A name is left alone exactly when it is already safe. */
  lemma SanitizeFixesExactlySafe(name: string)
    ensures Sanitize(name) == name <==> AllSafe(name)
  {
    if Sanitize(name) == name {
      assert AllSafe(Sanitize(name));
    } else {
      var i :| 0 <= i < |name| && Sanitize(name)[i] != name[i];
      assert !IsSafeChar(name[i]);
    }
  }

  /** A safe character is never white space, so a non-empty safe name is
      left alone by `trim()`. */
  lemma SafeNameIsTrimmed(s: string)
    requires AllSafe(s)
    ensures IsTrimmed(s)
  {
    if s != [] {
      assert IsSafeChar(s[0]) && IsSafeChar(s[|s| - 1]);
    }
  }

  lemma SanitizeIdempotent(name: string)
    ensures Sanitize(Sanitize(name)) == Sanitize(name)
  {
    SanitizeFixesExactlySafe(Sanitize(name));
  }

  /** A saved name has no path separator and no dot, so the file it names
      lies directly in the configuration directory and its stem is the
      whole name; and it is never the list's placeholder entry. */
  lemma SanitizedNameIsPlain(name: string)
    ensures '/' !in Sanitize(name) && '.' !in Sanitize(name)
    ensures Sanitize(name) != NoConfigPlaceholder
  {
    assert !IsSafeChar(NoConfigPlaceholder[0]);
  }

  // ---------------------------------------------------------------------
  // The editor

  /** The editor screen: the name it was opened for (`null` for a new
      configuration), and the text of its two fields. */
  datatype Editor = Editor(originalName: Option<string>, nameField: string, content: string)

  /** What a button press leaves behind: the directory, the toast shown (if
      any) and whether the editor closed. */
  datatype Outcome = Outcome(store: map<string, string>, toast: Option<string>, finished: bool)

  /** `onCreate`: an existing configuration is opened under its name and
      its content is loaded when its file exists; otherwise the fields keep
      the layout's text. A new configuration starts from the template. */
  function Open(configName: Option<string>, store: map<string, string>, layoutName: string, layoutContent: string): (r: Editor)
    ensures r.originalName == configName
    ensures configName.Some? ==> r.nameField == configName.value
    ensures configName.Some? && configName.value in store ==> r.content == store[configName.value]
    ensures configName.Some? && configName.value !in store ==> r.content == layoutContent
    ensures configName.None? ==> r == Editor(None, layoutName, DefaultTemplate)
  {
    match configName
    case Some(name) => Editor(configName, name, if name in store then store[name] else layoutContent)
    case None => Editor(None, layoutName, DefaultTemplate)
  }

  /** The template button replaces the content and nothing else. */
  function LoadTemplate(e: Editor): (r: Editor)
    ensures r.content == DefaultTemplate
    ensures r.originalName == e.originalName && r.nameField == e.nameField
  {
    e.(content := DefaultTemplate)
  }

  /** `saveConfig()`. A blank name only shows a toast. Otherwise the content
      is written under the sanitised name, and the file the editor was opened
      for is removed when the name changed. */
  function Save(e: Editor, store: map<string, string>): (r: Outcome)
    ensures Trim(e.nameField) == [] ==> r == Outcome(store, Some(EnterNameToast), false)
    ensures Trim(e.nameField) != [] ==>
      var safe := Sanitize(Trim(e.nameField));
      && r.finished
      && r.toast == Some(SavedToastPrefix + safe)
      && safe in r.store && r.store[safe] == e.content
      && (e.originalName.Some? && e.originalName.value != safe ==> e.originalName.value !in r.store)
      && (forall k | k != safe && (e.originalName.None? || k != e.originalName.value) ::
            (k in r.store <==> k in store) && (k in store ==> r.store[k] == store[k]))
      && r.store.Keys <= store.Keys + {safe}
  {
    var name := Trim(e.nameField);
    if name == [] then Outcome(store, Some(EnterNameToast), false)
    else
      var safe := Sanitize(name);
      var kept := if e.originalName.Some? && e.originalName.value != safe then store - {e.originalName.value} else store;
      Outcome(kept[safe := e.content], Some(SavedToastPrefix + safe), true)
  }

  /** `deleteConfig()`. A blank name closes the editor. Otherwise, once the
      dialog is confirmed, the file named by the trimmed field (not the
      sanitised one) and the file the editor was opened for are removed; a
      cancelled dialog changes nothing. */
  function Delete(e: Editor, store: map<string, string>, confirmed: bool): (r: Outcome)
    ensures Trim(e.nameField) == [] ==> r == Outcome(store, None, true)
    ensures Trim(e.nameField) != [] && !confirmed ==> r == Outcome(store, None, false)
    ensures Trim(e.nameField) != [] && confirmed ==>
      && r.finished && r.toast == Some(DeletedToast)
      && Trim(e.nameField) !in r.store
      && (e.originalName.Some? ==> e.originalName.value !in r.store)
      && (forall k | k in store && k != Trim(e.nameField) && (e.originalName.None? || k != e.originalName.value) ::
            k in r.store && r.store[k] == store[k])
      && r.store.Keys <= store.Keys
  {
    var name := Trim(e.nameField);
    if name == [] then Outcome(store, None, true)
    else if !confirmed then Outcome(store, None, false)
    else Outcome(RemoveNames(store, name, e.originalName), Some(DeletedToast), true)
  }

  /** The files the confirmed dialog deletes: the typed name, and the
      name the editor was opened for. */
  function RemoveNames(store: map<string, string>, name: string, original: Option<string>): (r: map<string, string>)
    ensures name !in r
    ensures original.Some? ==> original.value !in r
    ensures forall k | k in store && k != name && (original.None? || k != original.value) :: k in r && r[k] == store[k]
    ensures r.Keys <= store.Keys
  {
    var removed := store - {name};
    if original.Some? then removed - {original.value} else removed
  }

  // ---------------------------------------------------------------------
  // Properties across operations

  /** Reopening a saved configuration shows what was saved. */
  lemma SaveThenOpen(e: Editor, store: map<string, string>, layoutName: string, layoutContent: string)
    requires Trim(e.nameField) != []
    ensures var safe := Sanitize(Trim(e.nameField));
      Open(Some(safe), Save(e, store).store, layoutName, layoutContent) == Editor(Some(safe), safe, e.content)
  {
  }

  /** The template button followed by a save writes the template under the
      sanitised name, and reopening that name shows it. */
  lemma TemplateThenSave(e: Editor, store: map<string, string>, layoutName: string, layoutContent: string)
    requires Trim(e.nameField) != []
    ensures var safe := Sanitize(Trim(e.nameField));
      var saved := Save(LoadTemplate(e), store);
      && safe in saved.store && saved.store[safe] == DefaultTemplate
      && Open(Some(safe), saved.store, layoutName, layoutContent).content == DefaultTemplate
  {
    SaveThenOpen(LoadTemplate(e), store, layoutName, layoutContent);
  }

  /** Saving the same screen twice leaves the directory as saving it once,
      once the editor has been reopened under the saved name. */
  lemma SaveTwice(e: Editor, store: map<string, string>)
    requires Trim(e.nameField) != []
    ensures var safe := Sanitize(Trim(e.nameField));
      var again := e.(originalName := Some(safe));
      Save(again, Save(e, store).store).store == Save(e, store).store
  {
  }

  /** Opening a configuration, typing a new name and saving moves the
      content to the new name and removes the old file. */
  lemma RenameMoves(previous: string, store: map<string, string>, newName: string, layoutName: string, layoutContent: string)
    requires previous in store
    requires Trim(newName) != [] && Sanitize(Trim(newName)) != previous
    ensures var e := Open(Some(previous), store, layoutName, layoutContent).(nameField := newName);
      var r := Save(e, store).store;
      && previous !in r
      && r[Sanitize(Trim(newName))] == store[previous]
  {
  }

  /** Saving closes the editor; in a new editor where the same unsafe name
      is typed again, a confirmed delete misses the saved file: the dialog
      removes the raw name, while the file was written under the sanitised
      one. */
  lemma DeleteMissesSanitisedFile(store: map<string, string>, typed: string, content: string)
    requires Trim(typed) != [] && !AllSafe(Trim(typed))
    ensures var e := Editor(None, typed, content);
      var saved := Save(e, store).store;
      var safe := Sanitize(Trim(typed));
      && safe in Delete(e, saved, true).store
      && Delete(e, saved, true).store[safe] == content
  {
    SanitizeFixesExactlySafe(Trim(typed));
  }
}

=== FILE: messages.dfy ===
/** The two message kinds that cross the boundary between the screen and
    the background service: the command intent sent to the service, and
    the log broadcast sent back. */
module Messages {
  import opened Wrappers

  /** The string and integer extras of a command intent. Every extra may be
      absent; an absent intent behaves exactly like `NoExtras`, because the
      service reads each extra through `intent?.`. */
  datatype Intent = Intent(
    action: Option<string>,
    instance: Option<string>,
    mode: Option<int>,
    bind: Option<string>,
    endpoint: Option<string>,
    proxy: Option<string>,
    cmdline: Option<string>,
    configName: Option<string>)

  const NoExtras: Intent := Intent(None, None, None, None, None, None, None, None)

  /** One `LOG_UPDATE` broadcast: the instance it is tagged with and one line. */
  datatype LogEvent = LogEvent(instance: string, line: string)
}

=== FILE: service.dfy ===
/** The background service's instance registry (`VwarpService`). The two
    process-wide maps `processes` and `runningFlags`, the broadcast log and
    the service's own run state are one immutable `State`; every command,
    every step of a launch thread and every step of a relay loop is a pure
    transition on it. Child processes are opaque handles into `children`,
    where each records whether it still runs, everything it writes, the
    lines the relay has already forwarded and those not read yet. */
module Service {
  import opened Wrappers
  import opened Strings
  import opened Messages
  import opened ServiceArgs

  const DefaultAction: string := "start"
  const DefaultInstance: string := "default"
  const StopAction: string := "stop"
  /** The instance name a stop command uses to mean every instance. */
  const AllInstances: string := "__ALL__"

  const SystemInstance: string := "system"
  const StoppedLine: string := "已停止"
  const AllStoppedLine: string := "所有实例已停止"
  const NoBinaryLine: string := "错误: 找不到 vwarp 二进制文件"
  const NoBinaryHintLine: string := "请将 libvwarp.so 放入 jniLibs/arm64-v8a/ 目录"

  function BinaryLine(path: string): string { "二进制: " + path }
  function CommandLine(cmd: seq<string>): string { "命令: " + Join(cmd, " ") }
  function StartedLine(pid: int): string { "进程已启动 PID: " + IntToString(pid) }
  function ExitLine(code: int): string { "进程退出 code=" + IntToString(code) }
  /** `"异常: ${e.message}"`, where a null message prints as `null`. */
  function ExceptionLine(message: Option<string>): string { "异常: " + message.GetOr("null") }

  datatype Handle = Handle(pid: nat)

  /** A child process behind a handle: the instance it was started for, the
      lines it writes over its life (`output`), the lines the relay has read
      and forwarded so far, the lines not read yet, and whether it is still
      running. */
  datatype Child = Child(instance: string, output: seq<string>, relayed: seq<string>, unread: seq<string>, alive: bool)

  /** Two records of the same child: same instance, same output, same lines
      forwarded. */
  predicate SameHistory(a: Child, b: Child) {
    a.instance == b.instance && a.output == b.output && a.relayed == b.relayed
  }

  /** Where one thread of `startVwarpProcess` stands: before the spawn,
      relaying the output of the child it spawned, or past its `finally`. */
  datatype Stage = Launching | Relaying(handle: Handle) | Finished

  datatype Worker = Worker(instance: string, args: seq<string>, stage: Stage)

  datatype State = State(
    processes: map<string, Handle>,
    runningFlags: map<string, bool>,
    children: map<Handle, Child>,
    workers: seq<Worker>,
    log: seq<LogEvent>,
    serviceAlive: bool,
    nextPid: nat)

  const Init: State := State(map[], map[], map[], [], [], false, 0)

  /** The application's private directory and the configuration directory's
      contents (file stem to text), as the service finds them. */
  datatype Env = Env(filesDir: string, configs: map<string, string>)

  /** `order` lists every key of `keys` once: one possible iteration order
      of a `ConcurrentHashMap` key set. */
  predicate IsEnumeration(order: seq<string>, keys: set<string>) {
    && (forall i, j | 0 <= i < j < |order| :: order[i] != order[j])
    && (set n | n in order) == keys
  }

  /** `getRunningInstances()` may return exactly the enumerations of the
      registry's keys. */
  predicate IsRunningList(st: State, running: seq<string>) {
    IsEnumeration(running, st.processes.Keys)
  }

  /** `runningFlags[instance] == true`: a missing flag reads as null. */
  predicate FlagSet(st: State, name: string) {
    name in st.runningFlags && st.runningFlags[name]
  }

  // ---------------------------------------------------------------------
  // Stopping

  /** `destroy()`, the grace period and `destroyForcibly()` collapsed into
      one step: the child is no longer running and its unread output is
      gone with it. Other children are untouched. */
  function Terminate(children: map<Handle, Child>, h: Handle): (r: map<Handle, Child>)
    ensures r.Keys == children.Keys
    ensures h in children ==> SameHistory(r[h], children[h]) && r[h].unread == [] && !r[h].alive
    ensures forall g | g in children && g != h :: r[g] == children[g]
  {
    if h in children then children[h := children[h].(unread := [], alive := false)] else children
  }

  /** `stopInstance(name)`: clear the flag, terminate the registered child
      if there is one, unregister the name and report it stopped, whether
      or not it was registered. */
  function StopInstance(st: State, name: string): (r: State)
    ensures name !in r.processes && name in r.runningFlags && !r.runningFlags[name]
    ensures r.processes == st.processes - {name}
    ensures r.runningFlags == st.runningFlags[name := false]
    ensures r.log == st.log + [LogEvent(name, StoppedLine)]
    ensures name in st.processes ==> r.children == Terminate(st.children, st.processes[name])
    ensures name !in st.processes ==> r.children == st.children
    ensures r.workers == st.workers && r.serviceAlive == st.serviceAlive && r.nextPid == st.nextPid
  {
    var children := if name in st.processes then Terminate(st.children, st.processes[name]) else st.children;
    st.(processes := st.processes - {name},
        runningFlags := st.runningFlags[name := false],
        children := children,
        log := st.log + [LogEvent(name, StoppedLine)])
  }

  /** One "stopped" line per name, in order. */
  function StoppedLines(names: seq<string>): (r: seq<LogEvent>)
    ensures |r| == |names|
    ensures forall i | 0 <= i < |names| :: r[i] == LogEvent(names[i], StoppedLine)
  {
    if names == [] then [] else [LogEvent(names[0], StoppedLine)] + StoppedLines(names[1..])
  }

  /** `forEach { stopInstance(it) }` over a snapshot of names. */
  function {:induction false} StopEach(st: State, names: seq<string>): (r: State)
    ensures r.children.Keys == st.children.Keys
    ensures r.workers == st.workers && r.serviceAlive == st.serviceAlive && r.nextPid == st.nextPid
    decreases |names|
  {
    if names == [] then st else StopEach(StopInstance(st, names[0]), names[1..])
  }

  /** The children registered under some of `names`. */
  function StoppedHandles(st: State, names: seq<string>): set<Handle> {
    set n | n in names && n in st.processes :: st.processes[n]
  }

  /** Stopping a list of names terminates every child registered under one
      of them and leaves every other child as it was. */
  lemma {:induction false} StopEachChildren(st: State, names: seq<string>)
    ensures var r := StopEach(st, names);
      && (forall g | g in st.children :: SameHistory(r.children[g], st.children[g]))
      && (forall g | g in st.children && g in StoppedHandles(st, names) :: !r.children[g].alive && r.children[g].unread == [])
      && (forall g | g in st.children && g !in StoppedHandles(st, names) :: r.children[g] == st.children[g])
    decreases |names|
  {
    if names != [] {
      var s1 := StopInstance(st, names[0]);
      StopEachChildren(s1, names[1..]);
      var r := StopEach(st, names);
      assert r == StopEach(s1, names[1..]);
      var rest := StoppedHandles(s1, names[1..]);
      forall g | g in rest ensures g in StoppedHandles(st, names) {
        var n :| n in names[1..] && n in s1.processes && s1.processes[n] == g;
        assert n in names && n in st.processes;
      }
      forall g | g in StoppedHandles(st, names)
        ensures g in rest || (names[0] in st.processes && g == st.processes[names[0]])
      {
        var n :| n in names && n in st.processes && st.processes[n] == g;
        if n != names[0] {
          assert n in names[1..] && n in s1.processes;
        }
      }
    }
  }

  /** Stopping a list of names unregisters exactly those names. */
  lemma {:induction false} StopEachRegistry(st: State, names: seq<string>)
    ensures StopEach(st, names).processes == st.processes - (set n | n in names)
    decreases |names|
  {
    if names == [] {
      assert st.processes - {} == st.processes;
    } else {
      var s1 := StopInstance(st, names[0]);
      StopEachRegistry(s1, names[1..]);
      assert (set n | n in names) == {names[0]} + (set n | n in names[1..]);
    }
  }

  /** Stopping a list of names clears exactly their flags. */
  lemma {:induction false} StopEachFlags(st: State, names: seq<string>)
    ensures var r := StopEach(st, names);
      && (forall n | n in names :: n in r.runningFlags && !r.runningFlags[n])
      && (forall n | n in st.runningFlags && n !in names :: n in r.runningFlags && r.runningFlags[n] == st.runningFlags[n])
      && r.runningFlags.Keys == st.runningFlags.Keys + (set n | n in names)
    decreases |names|
  {
    if names != [] {
      var s1 := StopInstance(st, names[0]);
      StopEachFlags(s1, names[1..]);
      var r := StopEach(st, names);
      assert r == StopEach(s1, names[1..]);
      forall n | n in names ensures n in r.runningFlags && !r.runningFlags[n] {
        if n !in names[1..] {
          assert n == names[0];
        }
      }
      assert (set n | n in names) == {names[0]} + (set n | n in names[1..]);
    }
  }

  /** Stopping a list of names reports each of them once, in list order. */
  lemma {:induction false} StopEachLog(st: State, names: seq<string>)
    ensures StopEach(st, names).log == st.log + StoppedLines(names)
    decreases |names|
  {
    if names == [] {
      assert st.log + [] == st.log;
    } else {
      var s1 := StopInstance(st, names[0]);
      StopEachLog(s1, names[1..]);
      calc {
        StopEach(st, names).log;
        StopEach(s1, names[1..]).log;
        s1.log + StoppedLines(names[1..]);
        (st.log + [LogEvent(names[0], StoppedLine)]) + StoppedLines(names[1..]);
        st.log + ([LogEvent(names[0], StoppedLine)] + StoppedLines(names[1..]));
        st.log + StoppedLines(names);
      }
    }
  }

  /** `stopAllInstances()`: stop every registered name, in the order the key
      snapshot lists them, then report once for the whole service. */
  function StopAllInstances(st: State, order: seq<string>): (r: State)
    requires IsEnumeration(order, st.processes.Keys)
    ensures r.processes == map[]
    ensures forall n | n in st.processes :: n in r.runningFlags && !r.runningFlags[n]
    ensures r.runningFlags.Keys == st.runningFlags.Keys + st.processes.Keys
    ensures forall n | n in st.runningFlags && n !in st.processes :: r.runningFlags[n] == st.runningFlags[n]
    ensures r.log == st.log + StoppedLines(order) + [LogEvent(SystemInstance, AllStoppedLine)]
    ensures |r.log| == |st.log| + |st.processes| + 1
    ensures r.log[|r.log| - 1] == LogEvent(SystemInstance, AllStoppedLine)
    ensures r.workers == st.workers && r.nextPid == st.nextPid && r.serviceAlive == st.serviceAlive
    ensures r.children.Keys == st.children.Keys
    ensures forall n | n in st.processes && st.processes[n] in st.children :: !r.children[st.processes[n]].alive
    ensures forall g | g in st.children && g !in st.processes.Values :: r.children[g] == st.children[g]
  {
    var stopped := StopEach(st, order);
    StopEachRegistry(st, order);
    StopEachFlags(st, order);
    StopEachLog(st, order);
    StopEachChildren(st, order);
    StoppedHandlesOfAll(st, order);
    assert stopped.processes.Keys == {};
    DistinctCardinality(order);
    stopped.(log := stopped.log + [LogEvent(SystemInstance, AllStoppedLine)])
  }

  /** Stopping an enumeration of the registry stops every registered child. */
  lemma StoppedHandlesOfAll(st: State, order: seq<string>)
    requires IsEnumeration(order, st.processes.Keys)
    ensures StoppedHandles(st, order) == st.processes.Values
  {
    forall g | g in st.processes.Values ensures g in StoppedHandles(st, order) {
      var n :| n in st.processes && st.processes[n] == g;
      assert n in (set m | m in order);
    }
  }

  lemma {:induction false} DistinctCardinality(order: seq<string>)
    requires forall i, j | 0 <= i < j < |order| :: order[i] != order[j]
    ensures |(set n | n in order)| == |order|
    decreases |order|
  {
    if order != [] {
      var rest := order[1..];
      DistinctCardinality(rest);
      assert (set n | n in order) == {order[0]} + (set n | n in rest);
      assert order[0] !in (set n | n in rest);
    }
  }

  /** `onDestroy()`: every instance is stopped and the service is gone. The
      wake lock it releases is not modelled. */
  function OnDestroy(st: State, order: seq<string>): (r: State)
    requires IsEnumeration(order, st.processes.Keys)
    ensures r.processes == map[] && !r.serviceAlive
    ensures forall n | n in st.processes :: n in r.runningFlags && !r.runningFlags[n]
    ensures r.runningFlags.Keys == st.runningFlags.Keys + st.processes.Keys
    ensures forall n | n in st.runningFlags && n !in st.processes :: r.runningFlags[n] == st.runningFlags[n]
    ensures r.children.Keys == st.children.Keys
    ensures forall n | n in st.processes && st.processes[n] in st.children :: !r.children[st.processes[n]].alive
    ensures forall g | g in st.children && g !in st.processes.Values :: r.children[g] == st.children[g]
    ensures r.log == st.log + StoppedLines(order) + [LogEvent(SystemInstance, AllStoppedLine)]
    ensures r.workers == st.workers && r.nextPid == st.nextPid
  {
    StopAllInstances(st, order).(serviceAlive := false)
  }

  // ---------------------------------------------------------------------
  // Commands

  function ActionOf(intent: Intent): string { intent.action.GetOr(DefaultAction) }
  function InstanceOf(intent: Intent): string { intent.instance.GetOr(DefaultInstance) }
  function ModeOf(intent: Intent): int { intent.mode.GetOr(0) }

  /** The stop branch of `onStartCommand`: the service stops itself as soon
      as the registry is empty. */
  function StopCommand(st: State, instance: string, order: seq<string>): (r: State)
    requires IsEnumeration(order, st.processes.Keys)
    ensures r.serviceAlive <==> r.processes != map[]
    ensures instance == AllInstances ==> r.processes == map[] && !r.serviceAlive
    ensures instance != AllInstances ==> r.processes == st.processes - {instance}
    ensures instance != AllInstances ==> r == StopInstance(st, instance).(serviceAlive := r.processes != map[])
    ensures instance == AllInstances ==> r == StopAllInstances(st, order).(serviceAlive := false)
    ensures r.workers == st.workers && r.nextPid == st.nextPid
  {
    var stopped := if instance == AllInstances then StopAllInstances(st, order) else StopInstance(st, instance);
    stopped.(serviceAlive := stopped.processes != map[])
  }

  /** The start branch of `onStartCommand`: the service comes up, the name
      is stopped first, the arguments are built, and only when that succeeds
      is a launch thread queued. Nothing is registered yet: that happens in
      the thread, after the spawn. */
  function StartCommand(st: State, intent: Intent, env: Env): (r: State)
    ensures r.serviceAlive
    ensures var name := InstanceOf(intent);
      && name !in r.processes && name in r.runningFlags && !r.runningFlags[name]
      && r.processes == st.processes - {name}
      && r.runningFlags == st.runningFlags[name := false]
      && (name in st.processes ==> r.children == Terminate(st.children, st.processes[name]))
      && (name !in st.processes ==> r.children == st.children)
      && |r.log| > |st.log| && r.log[|st.log|] == LogEvent(name, StoppedLine)
    ensures var built := BuildArgs(intent, ModeOf(intent), InstanceOf(intent), env.configs, env.filesDir);
      && r.log == st.log + [LogEvent(InstanceOf(intent), StoppedLine)] + built.errors
      && (built.args.None? ==> r.workers == st.workers)
      && (built.args.Some? ==> r.workers == st.workers + [Worker(InstanceOf(intent), built.args.value, Launching)])
    ensures r.nextPid == st.nextPid
  {
    var name := InstanceOf(intent);
    var stopped := StopInstance(st.(serviceAlive := true), name);
    var built := BuildArgs(intent, ModeOf(intent), name, env.configs, env.filesDir);
    var logged := stopped.(log := stopped.log + built.errors);
    if built.args.Some? then
      logged.(workers := logged.workers + [Worker(name, built.args.value, Launching)])
    else
      logged
  }

  /** `onStartCommand(intent)`: the action defaults to start and the
      instance to `default`; any action other than `stop` starts. A command
      never adds a name to the registry. */
  function OnStartCommand(st: State, intent: Intent, env: Env, order: seq<string>): (r: State)
    requires IsEnumeration(order, st.processes.Keys)
    ensures r.processes.Keys <= st.processes.Keys
    ensures InstanceOf(intent) !in r.processes
    ensures ActionOf(intent) == StopAction ==> r == StopCommand(st, InstanceOf(intent), order)
    ensures ActionOf(intent) != StopAction ==> r == StartCommand(st, intent, env)
  {
    if ActionOf(intent) == StopAction then StopCommand(st, InstanceOf(intent), order)
    else StartCommand(st, intent, env)
  }

  // ---------------------------------------------------------------------
  // The launch thread

  /** The `finally` block: unregister the thread's instance by name, and
      stop the service when the registry is left empty. */
  function Cleanup(st: State, w: nat): (r: State)
    requires w < |st.workers|
    ensures r.processes == st.processes - {st.workers[w].instance}
    ensures r.runningFlags == st.runningFlags - {st.workers[w].instance}
    ensures r.workers == st.workers[w := st.workers[w].(stage := Finished)]
    ensures r.processes == map[] ==> !r.serviceAlive
    ensures r.processes != map[] ==> r.serviceAlive == st.serviceAlive
    ensures r.children == st.children && r.log == st.log && r.nextPid == st.nextPid
  {
    var name := st.workers[w].instance;
    var processes := st.processes - {name};
    st.(processes := processes,
        runningFlags := st.runningFlags - {name},
        workers := st.workers[w := st.workers[w].(stage := Finished)],
        serviceAlive := if processes == map[] then false else st.serviceAlive)
  }

  /** What `builder.start()` does: a child that will write `output`, whose
      pid the reflection lookup reports as `reportedPid`, or an exception. */
  datatype SpawnOutcome = Started(output: seq<string>, reportedPid: int) | StartFailed(message: Option<string>)

  predicate CanSpawn(st: State, w: nat) {
    w < |st.workers| && st.workers[w].stage == Launching
  }

  /** The launch half of the thread. `exe` is the binary's path when it
      exists. A missing binary and a failed spawn both end in the `finally`
      block, so both unregister the thread's instance name; only a started
      child is registered, with a fresh handle and a true flag. */
  function Spawn(st: State, w: nat, exe: Option<string>, outcome: SpawnOutcome): (r: State)
    requires CanSpawn(st, w)
    ensures var name := st.workers[w].instance;
      (name in r.processes && FlagSet(r, name)) <==> exe.Some? && outcome.Started?
    ensures exe.None? ==> r == Cleanup(st.(log := st.log + [LogEvent(st.workers[w].instance, NoBinaryLine), LogEvent(st.workers[w].instance, NoBinaryHintLine)]), w)
    ensures exe.Some? && outcome.StartFailed? ==>
      && r.processes == st.processes - {st.workers[w].instance}
      && r == Cleanup(st.(log := st.log + [LogEvent(st.workers[w].instance, BinaryLine(exe.value)),
                                           LogEvent(st.workers[w].instance, CommandLine([exe.value] + st.workers[w].args)),
                                           LogEvent(st.workers[w].instance, ExceptionLine(outcome.message))]), w)
    ensures exe.Some? && outcome.Started? ==>
      var h := Handle(st.nextPid);
      && r.processes == st.processes[st.workers[w].instance := h]
      && r.runningFlags == st.runningFlags[st.workers[w].instance := true]
      && r.children == st.children[h := Child(st.workers[w].instance, outcome.output, [], outcome.output, true)]
      && r.workers == st.workers[w := st.workers[w].(stage := Relaying(h))]
      && r.nextPid == st.nextPid + 1
      && r.serviceAlive == st.serviceAlive
      && r.log == st.log + [LogEvent(st.workers[w].instance, BinaryLine(exe.value)),
                            LogEvent(st.workers[w].instance, CommandLine([exe.value] + st.workers[w].args)),
                            LogEvent(st.workers[w].instance, StartedLine(outcome.reportedPid))]
    ensures st.serviceAlive ==> r.serviceAlive || r.processes == map[]
  {
    var worker := st.workers[w];
    var name := worker.instance;
    match exe
    case None =>
      Cleanup(st.(log := st.log + [LogEvent(name, NoBinaryLine), LogEvent(name, NoBinaryHintLine)]), w)
    case Some(path) =>
      var announced := st.log + [LogEvent(name, BinaryLine(path)), LogEvent(name, CommandLine([path] + worker.args))];
      match outcome
      case StartFailed(message) =>
        Cleanup(st.(log := announced + [LogEvent(name, ExceptionLine(message))]), w)
      case Started(output, pid) =>
        var h := Handle(st.nextPid);
        st.(processes := st.processes[name := h],
            runningFlags := st.runningFlags[name := true],
            children := st.children[h := Child(name, output, [], output, true)],
            workers := st.workers[w := worker.(stage := Relaying(h))],
            log := announced + [LogEvent(name, StartedLine(pid))],
            nextPid := st.nextPid + 1)
  }

  /** Handles are numbered in spawn order, so the next number is unused. */
  predicate HandlesBelowNext(st: State) {
    forall h | h in st.children :: h.pid < st.nextPid
  }

  lemma FreshHandle(st: State)
    ensures HandlesBelowNext(st) ==> Handle(st.nextPid) !in st.children
  {
  }

  // ---------------------------------------------------------------------
  // The relay loop

  predicate IsRelaying(st: State, w: nat) {
    && w < |st.workers|
    && st.workers[w].stage.Relaying?
    && st.workers[w].stage.handle in st.children
  }

  /** The loop may read another line: the flag reads true and the child has
      written a line not read yet. */
  predicate CanReadLine(st: State, w: nat) {
    && IsRelaying(st, w)
    && FlagSet(st, st.workers[w].instance)
    && st.children[st.workers[w].stage.handle].unread != []
  }

  /** The loop ends: the flag no longer reads true, or `readLine()` returned
      null because the output is exhausted. */
  predicate CanFinishRelay(st: State, w: nat) {
    && IsRelaying(st, w)
    && (!FlagSet(st, st.workers[w].instance) || st.children[st.workers[w].stage.handle].unread == [])
  }

  /** One iteration: the next unread line is broadcast under the instance. */
  function RelayLine(st: State, w: nat): (r: State)
    requires CanReadLine(st, w)
    ensures var h := st.workers[w].stage.handle;
      && r.log == st.log + [LogEvent(st.workers[w].instance, st.children[h].unread[0])]
      && h in r.children && [st.children[h].unread[0]] + r.children[h].unread == st.children[h].unread
      && r.children[h].relayed == st.children[h].relayed + [st.children[h].unread[0]]
      && r.children[h].instance == st.children[h].instance && r.children[h].output == st.children[h].output
      && r.children[h].alive == st.children[h].alive
      && r.children - {h} == st.children - {h}
    ensures r.processes == st.processes && r.runningFlags == st.runningFlags && r.workers == st.workers
  {
    var h := st.workers[w].stage.handle;
    var c := st.children[h];
    st.(children := st.children[h := c.(relayed := c.relayed + [c.unread[0]], unread := c.unread[1..])],
        log := st.log + [LogEvent(st.workers[w].instance, c.unread[0])])
  }

  /** After the loop: the reader is closed, `waitFor()` returns the exit
      code once the child has ended, the code is reported, and the `finally`
      block unregisters the thread's instance name. */
  function RelayExit(st: State, w: nat, code: int): (r: State)
    requires CanFinishRelay(st, w)
    ensures var name := st.workers[w].instance;
      && name !in r.processes && name !in r.runningFlags
      && r.processes == st.processes - {name}
      && r.runningFlags == st.runningFlags - {name}
      && r.log == st.log + [LogEvent(name, ExitLine(code))]
    ensures r.children == Terminate(st.children, st.workers[w].stage.handle)
    ensures r.workers == st.workers[w := st.workers[w].(stage := Finished)]
    ensures r.nextPid == st.nextPid
    ensures r.processes == map[] ==> !r.serviceAlive
    ensures r.processes != map[] ==> r.serviceAlive == st.serviceAlive
  {
    var name := st.workers[w].instance;
    var ended := st.(children := Terminate(st.children, st.workers[w].stage.handle),
                     log := st.log + [LogEvent(name, ExitLine(code))]);
    Cleanup(ended, w)
  }

  /** The `catch` path: reading threw. The exception is reported and the
      `finally` block still unregisters the name; the child itself is left
      as it is. */
  function RelayFail(st: State, w: nat, message: Option<string>): (r: State)
    requires IsRelaying(st, w)
    ensures var name := st.workers[w].instance;
      && name !in r.processes && name !in r.runningFlags
      && r.processes == st.processes - {name}
      && r.runningFlags == st.runningFlags - {name}
      && r.log == st.log + [LogEvent(name, ExceptionLine(message))]
    ensures r.children == st.children
    ensures r.workers == st.workers[w := st.workers[w].(stage := Finished)]
    ensures r.nextPid == st.nextPid
    ensures r.processes == map[] ==> !r.serviceAlive
    ensures r.processes != map[] ==> r.serviceAlive == st.serviceAlive
  {
    Cleanup(st.(log := st.log + [LogEvent(st.workers[w].instance, ExceptionLine(message))]), w)
  }
}

=== FILE: service_args.dfy ===
/** How the service turns a start command into the argument vector of the
    proxy program (`buildArgs`), in its three modes: a fixed flag list, a
    free command line split at white space, and a named configuration file. */
module ServiceArgs {
  import opened Wrappers
  import opened Strings
  import opened Messages

  const DefaultBind: string := "127.0.0.1:1077"
  const DefaultEndpoint: string := "162.159.198.2"

  /** The entry the configuration list shows when no configuration exists. */
  const NoConfigPlaceholder: string := "(无配置)"
  const NoConfigSelectedError: string := "错误: 未选择配置文件"
  const ConfigMissingError: string := "错误: 配置文件不存在"

  // ---------------------------------------------------------------------
  // Reading a flag list back

  /** How the proxy program reads a flag list: `--masque` stands alone and
      every other flag takes the next argument as its value; the first
      occurrence of a flag wins. */
  function Lookup(args: seq<string>, flag: string): Option<string>
    decreases |args|
  {
    if |args| == 0 then None
    else if args[0] == "--masque" then Lookup(args[1..], flag)
    else if |args| < 2 then None
    else if args[0] == flag then Some(args[1])
    else Lookup(args[2..], flag)
  }

  // ---------------------------------------------------------------------
  // Mode 0: the fixed flag list

  /** Kotlin's `isNullOrEmpty()`. */
  predicate IsNullOrEmpty(s: Option<string>) {
    s.None? || s.value == ""
  }

  /** The simple mode. Only an absent extra falls back to the default; an
      extra that is present but empty is passed through as it is. */
  function SimpleArgs(bind: Option<string>, endpoint: Option<string>, proxy: Option<string>): (r: seq<string>)
    ensures |r| == 7 || |r| == 9
    ensures |r| == 9 <==> !IsNullOrEmpty(proxy)
    ensures r[0] == "--masque"
  {
    var fixed := ["--masque", "--noize-preset", "light", "--bind", bind.GetOr(DefaultBind), "-e", endpoint.GetOr(DefaultEndpoint)];
    if !IsNullOrEmpty(proxy) then fixed + ["--proxy", proxy.value] else fixed
  }

  /** Read back, the simple flag list carries the bind address and the
      endpoint (or their defaults when absent), the light noise preset, and
      an upstream proxy exactly when a non-empty one was given. */
  lemma SimpleArgsReadBack(bind: Option<string>, endpoint: Option<string>, proxy: Option<string>)
    ensures var r := SimpleArgs(bind, endpoint, proxy);
      && Lookup(r, "--noize-preset") == Some("light")
      && Lookup(r, "--bind") == Some(bind.GetOr(DefaultBind))
      && Lookup(r, "-e") == Some(endpoint.GetOr(DefaultEndpoint))
      && Lookup(r, "--proxy") == (if IsNullOrEmpty(proxy) then None else proxy)
  {
    var r := SimpleArgs(bind, endpoint, proxy);
    var p1 := r[1..];
    var p2 := p1[2..];
    var p3 := p2[2..];
    var p4 := p3[2..];
    assert p1[0] == "--noize-preset" && p1[1] == "light";
    assert p2[0] == "--bind" && p2[1] == bind.GetOr(DefaultBind);
    assert p3[0] == "-e" && p3[1] == endpoint.GetOr(DefaultEndpoint);
    assert p4 == r[7..];
    forall f ensures Lookup(r, f) == Lookup(p1, f) {}
    forall f | f != "--noize-preset" ensures Lookup(p1, f) == Lookup(p2, f) {}
    forall f | f != "--noize-preset" && f != "--bind" ensures Lookup(p1, f) == Lookup(p3, f) {}
    forall f | f != "--noize-preset" && f != "--bind" && f != "-e" ensures Lookup(p1, f) == Lookup(p4, f) {}
    if IsNullOrEmpty(proxy) {
      assert p4 == [];
    } else {
      assert p4 == ["--proxy", proxy.value];
    }
  }

  // ---------------------------------------------------------------------
  // Mode 1: the command line split at white space

  predicate HasNoSpace(s: string) {
    forall i | 0 <= i < |s| :: !IsRegexSpace(s[i])
  }

  /** Index of the first `\s` character, or the length when there is none. */
  function FirstSpace(s: string): (k: nat)
    ensures k <= |s|
    ensures HasNoSpace(s[..k])
    ensures k == |s| || IsRegexSpace(s[k])
  {
    if s == [] || IsRegexSpace(s[0]) then 0 else 1 + FirstSpace(s[1..])
  }

  /** The tokens of `s`: its maximal runs of non-`\s` characters, in order.
      This is what `split(Regex("\\s+"))` followed by `filter { it.isNotEmpty() }`
      yields, since the filter discards exactly the empty pieces that the
      split leaves before a leading or after a trailing run of white space. */
  function Words(s: string): (r: seq<string>)
    ensures forall i | 0 <= i < |r| :: r[i] != [] && HasNoSpace(r[i])
    decreases |s|
  {
    if s == [] then []
    else if IsRegexSpace(s[0]) then Words(s[1..])
    else
      var k := FirstSpace(s);
      [s[..k]] + Words(s[k..])
  }

  lemma {:induction false} FirstSpaceAtMost(s: string, j: nat)
    requires j < |s| && IsRegexSpace(s[j])
    ensures FirstSpace(s) <= j
    decreases j
  {
    if j > 0 && !IsRegexSpace(s[0]) {
      FirstSpaceAtMost(s[1..], j - 1);
    }
  }

  lemma {:induction false} FirstSpaceAtLeast(s: string, j: nat)
    requires j <= |s| && HasNoSpace(s[..j])
    ensures FirstSpace(s) >= j
    decreases j
  {
    if j > 0 {
      assert s[..j][0] == s[0];
      assert s[1..][..j - 1] == s[..j][1..];
      FirstSpaceAtLeast(s[1..], j - 1);
    }
  }

  /** A space-free prefix followed by white space (or nothing) is one token. */
  lemma WordsAfterToken(t: string, rest: string)
    requires t != [] && HasNoSpace(t)
    requires rest == [] || IsRegexSpace(rest[0])
    ensures Words(t + rest) == [t] + Words(rest)
  {
    var s := t + rest;
    var k := FirstSpace(s);
    assert s[..|t|] == t;
    FirstSpaceAtLeast(s, |t|);
    if rest != [] {
      FirstSpaceAtMost(s, |t|);
    }
    assert k == |t|;
    assert s[..k] == t && s[k..] == rest;
  }

  function Concat(ts: seq<string>): string {
    if ts == [] then "" else ts[0] + Concat(ts[1..])
  }

  /** Two tokens around one white-space character split into those two. */
  lemma WordsOfPair(a: string, c: char, b: string)
    requires a != [] && HasNoSpace(a) && b != [] && HasNoSpace(b)
    requires IsRegexSpace(c)
    ensures Words(a + [c] + b) == [a, b]
  {
    assert a + [c] + b == a + ([c] + b);
    WordsAfterToken(a, [c] + b);
    assert ([c] + b)[1..] == b;
    WordsAfterToken(b, []);
    assert b + [] == b;
  }

  /** An ideographic space separates two arguments as a plain space does. */
  lemma WideSpaceSeparates()
    ensures Words("--bind\U{3000}127.0.0.1:1077") == ["--bind", "127.0.0.1:1077"]
  {
    assert "--bind\U{3000}127.0.0.1:1077" == "--bind" + ['\U{3000}'] + "127.0.0.1:1077";
    WordsOfPair("--bind", '\U{3000}', "127.0.0.1:1077");
  }

  /** `s` with every `\s` character removed. */
  function RemoveSpaces(s: string): string {
    if s == [] then ""
    else if IsRegexSpace(s[0]) then RemoveSpaces(s[1..])
    else [s[0]] + RemoveSpaces(s[1..])
  }

  lemma {:induction false} RemoveSpacesAppend(a: string, b: string)
    ensures RemoveSpaces(a + b) == RemoveSpaces(a) + RemoveSpaces(b)
    decreases |a|
  {
    if a != [] {
      assert (a + b)[1..] == a[1..] + b;
      RemoveSpacesAppend(a[1..], b);
    } else {
      assert a + b == b;
    }
  }

  lemma {:induction false} RemoveSpacesOfSpaceFree(s: string)
    requires HasNoSpace(s)
    ensures RemoveSpaces(s) == s
    decreases |s|
  {
    if s != [] {
      RemoveSpacesOfSpaceFree(s[1..]);
      assert s == [s[0]] + s[1..];
    }
  }

  /** The tokens lose nothing but white space: joined without separators
      they give the command line with every `\s` character removed. */
  lemma {:induction false} WordsConcat(s: string)
    ensures Concat(Words(s)) == RemoveSpaces(s)
    decreases |s|
  {
    if s != [] {
      if IsRegexSpace(s[0]) {
        WordsConcat(s[1..]);
      } else {
        var k := FirstSpace(s);
        var w := Words(s);
        assert w[0] == s[..k] && w[1..] == Words(s[k..]);
        WordsConcat(s[k..]);
        assert s == s[..k] + s[k..];
        RemoveSpacesAppend(s[..k], s[k..]);
        RemoveSpacesOfSpaceFree(s[..k]);
      }
    }
  }

  predicate IsBlankCmdline(s: string) {
    forall i | 0 <= i < |s| :: IsRegexSpace(s[i])
  }

  /** A command line has no tokens exactly when it is empty or all white space. */
  lemma {:induction false} WordsEmptyIffBlank(s: string)
    ensures Words(s) == [] <==> IsBlankCmdline(s)
    decreases |s|
  {
    if s != [] {
      if IsRegexSpace(s[0]) {
        WordsEmptyIffBlank(s[1..]);
        if IsBlankCmdline(s[1..]) {
          forall i | 0 <= i < |s| ensures IsRegexSpace(s[i]) {
            if i > 0 {
              assert s[i] == s[1..][i - 1];
            }
          }
        } else {
          var i :| 0 <= i < |s[1..]| && !IsRegexSpace(s[1..][i]);
          assert s[i + 1] == s[1..][i];
        }
      }
    }
  }

  predicate WellFormedTokens(ts: seq<string>) {
    forall i | 0 <= i < |ts| :: ts[i] != [] && HasNoSpace(ts[i])
  }

  /** Splitting inverts joining with single spaces: any list of non-empty,
      space-free arguments survives the trip through one command line. */
  lemma {:induction false} WordsOfJoin(ts: seq<string>)
    requires WellFormedTokens(ts)
    ensures Words(Join(ts, " ")) == ts
    decreases |ts|
  {
    if |ts| == 1 {
      WordsAfterToken(ts[0], "");
      assert ts[0] + "" == ts[0];
    } else if |ts| > 1 {
      var rest := Join(ts[1..], " ");
      assert Join(ts, " ") == ts[0] + (" " + rest);
      WordsAfterToken(ts[0], " " + rest);
      assert (" " + rest)[1..] == rest;
      WordsOfJoin(ts[1..]);
      assert ts == [ts[0]] + ts[1..];
    }
  }

  /** One character of the scan: white space ends the pending token, if
      there is one; any other character extends it. */
  lemma ScanStep(cur: string, rest: string)
    requires HasNoSpace(cur) && rest != []
    ensures IsRegexSpace(rest[0]) ==>
      Words(cur + rest) == (if cur == [] then [] else [cur]) + Words([] + rest[1..])
    ensures !IsRegexSpace(rest[0]) ==>
      Words(cur + rest) == Words((cur + [rest[0]]) + rest[1..]) && HasNoSpace(cur + [rest[0]])
  {
    if IsRegexSpace(rest[0]) {
      assert Words(rest) == Words(rest[1..]);
      assert [] + rest[1..] == rest[1..];
      if cur != [] {
        WordsAfterToken(cur, rest);
      } else {
        assert cur + rest == rest;
      }
    } else {
      assert (cur + [rest[0]]) + rest[1..] == cur + rest;
    }
  }

  /** The end of the scan: the pending token, if any, is the last one. */
  lemma ScanEnd(cur: string)
    requires HasNoSpace(cur)
    ensures Words(cur) == (if cur == [] then [] else [cur])
  {
    if cur != [] {
      WordsAfterToken(cur, "");
      assert cur + "" == cur;
    }
  }

  /** The split-and-filter pipeline as one left-to-right scan. */
  method SplitCmdline(s: string) returns (tokens: seq<string>)
    ensures tokens == Words(s)
  {
    tokens := [];
    var cur := "";
    var i := 0;
    assert cur + s[i..] == s;
    while i < |s|
      invariant 0 <= i <= |s|
      invariant HasNoSpace(cur)
      invariant tokens + Words(cur + s[i..]) == Words(s)
    {
      var rest := s[i..];
      ScanStep(cur, rest);
      assert rest[1..] == s[i + 1..];
      if IsRegexSpace(s[i]) {
        var done := if cur == [] then [] else [cur];
        AppendAssoc(tokens, done, Words([] + s[i + 1..]));
        tokens := tokens + done;
        cur := "";
      } else {
        cur := cur + [s[i]];
      }
      i := i + 1;
    }
    assert cur + s[i..] == cur;
    ScanEnd(cur);
    if cur != [] {
      tokens := tokens + [cur];
    }
  }

  // ---------------------------------------------------------------------
  // Mode 2: a named configuration file

  /** `File(File(filesDir, "configs"), "$name.json").absolutePath`. */
  function ConfigPath(filesDir: string, name: string): string {
    filesDir + "/configs/" + name + ".json"
  }

  // ---------------------------------------------------------------------
  // buildArgs

  /** What `buildArgs` returns (`null` is `None`) together with the log
      lines it broadcasts on the way. */
  datatype Built = Built(args: Option<seq<string>>, errors: seq<LogEvent>)

  /** `buildArgs(intent, mode, instance)`. The configuration directory is the
      map `configs` from file stem to content; a stem is present exactly when
      its `.json` file exists. */
  function BuildArgs(intent: Intent, mode: int, instance: string, configs: map<string, string>, filesDir: string): (r: Built)
    ensures mode == 0 ==> r == Built(Some(SimpleArgs(intent.bind, intent.endpoint, intent.proxy)), [])
    ensures mode == 1 ==> r == Built(Some(Words(intent.cmdline.GetOr(""))), [])
    ensures mode == 1 ==>
      && r.errors == [] && r.args.Some? && WellFormedTokens(r.args.value)
      && Concat(r.args.value) == RemoveSpaces(intent.cmdline.GetOr(""))
      && (r.args.value == [] <==> IsBlankCmdline(intent.cmdline.GetOr("")))
    ensures mode == 2 ==>
      if intent.configName.None? || intent.configName.value == NoConfigPlaceholder then
        r == Built(None, [LogEvent(instance, NoConfigSelectedError)])
      else if intent.configName.value !in configs then
        r == Built(None, [LogEvent(instance, ConfigMissingError)])
      else
        r == Built(Some(["--config", ConfigPath(filesDir, intent.configName.value)]), [])
    ensures mode !in {0, 1, 2} ==> r == Built(None, [])
    ensures r.args.None? ==> |r.errors| <= 1
    ensures r.args.Some? ==> r.errors == []
  {
    if mode == 0 then
      Built(Some(SimpleArgs(intent.bind, intent.endpoint, intent.proxy)), [])
    else if mode == 1 then
      var cmdline := intent.cmdline.GetOr("");
      WordsConcat(cmdline);
      WordsEmptyIffBlank(cmdline);
      Built(Some(Words(cmdline)), [])
    else if mode == 2 then
      var name := intent.configName;
      if name.None? || name.value == NoConfigPlaceholder then
        Built(None, [LogEvent(instance, NoConfigSelectedError)])
      else if name.value !in configs then
        Built(None, [LogEvent(instance, ConfigMissingError)])
      else
        Built(Some(["--config", ConfigPath(filesDir, name.value)]), [])
    else
      Built(None, [])
  }

  /** Read back, the configuration mode hands the program exactly the file
      of the selected configuration, whenever that file exists. */
  lemma ConfigArgsReadBack(intent: Intent, instance: string, configs: map<string, string>, filesDir: string)
    requires intent.configName.Some? && intent.configName.value != NoConfigPlaceholder
    requires intent.configName.value in configs
    ensures var r := BuildArgs(intent, 2, instance, configs, filesDir);
      && r.args.Some? && r.errors == []
      && Lookup(r.args.value, "--config") == Some(ConfigPath(filesDir, intent.configName.value))
  {
  }
}

=== FILE: service_trace.dfy ===
/** The service as an interleaving of atomic steps: commands arrive on the
    main thread while every launch thread independently spawns, relays and
    cleans up. This module states the invariant every step keeps, the
    guarantees that follow from it, the order in which relays forward
    output, and the ways in which a running child can fall out of the
    registry. */
module ServiceTrace {
  import opened Wrappers
  import opened Strings
  import opened Messages
  import opened ServiceArgs
  import opened Service

  datatype Step =
    | Command(intent: Intent, env: Env, order: seq<string>)
    | Launch(worker: nat, exe: Option<string>, outcome: SpawnOutcome)
    | ReadLine(worker: nat)
    | EndOfRelay(worker: nat, code: int)
    | RelayError(worker: nat, message: Option<string>)

  predicate Enabled(st: State, step: Step) {
    match step
    case Command(_, _, order) => IsEnumeration(order, st.processes.Keys)
    case Launch(w, _, _) => CanSpawn(st, w)
    case ReadLine(w) => CanReadLine(st, w)
    case EndOfRelay(w, _) => CanFinishRelay(st, w)
    case RelayError(w, _) => IsRelaying(st, w)
  }

  function Next(st: State, step: Step): State
    requires Enabled(st, step)
  {
    match step
    case Command(intent, env, order) => OnStartCommand(st, intent, env, order)
    case Launch(w, exe, outcome) => Spawn(st, w, exe, outcome)
    case ReadLine(w) => RelayLine(st, w)
    case EndOfRelay(w, code) => RelayExit(st, w, code)
    case RelayError(w, message) => RelayFail(st, w, message)
  }

  /** The state after `steps`, or `None` when some step was not enabled. */
  function Run(st: State, steps: seq<Step>): Option<State>
    decreases |steps|
  {
    if steps == [] then Some(st)
    else if Enabled(st, steps[0]) then Run(Next(st, steps[0]), steps[1..])
    else None
  }

  /** A run with an enabled first step continues from that step's result. */
  lemma RunStep(st: State, steps: seq<Step>)
    requires steps != [] && Enabled(st, steps[0])
    ensures Run(st, steps) == Run(Next(st, steps[0]), steps[1..])
  {
  }

  // ---------------------------------------------------------------------
  // The invariant

  /** A registered name points at a running child started for that name,
      and its flag reads true. */
  predicate RegisteredOk(st: State, n: string)
    requires n in st.processes
  {
    var h := st.processes[n];
    h in st.children && st.children[h].alive && st.children[h].instance == n && FlagSet(st, n)
  }

  /** A relaying thread reads a known child started for its own name. */
  predicate RelayOk(st: State, w: nat)
    requires w < |st.workers|
  {
    st.workers[w].stage.Relaying? ==>
      var h := st.workers[w].stage.handle;
      h in st.children && st.children[h].instance == st.workers[w].instance
  }

  predicate Inv(st: State) {
    && HandlesBelowNext(st)
    && (forall n | n in st.processes :: RegisteredOk(st, n))
    && (forall w | 0 <= w < |st.workers| :: RelayOk(st, w))
  }

  lemma InitInv()
    ensures Inv(Init)
  {
  }

  /** The invariant does not look at the log or the service's run state. */
  lemma InvIgnoresLog(st: State, log: seq<LogEvent>, alive: bool)
    requires Inv(st)
    ensures Inv(st.(log := log, serviceAlive := alive))
  {
    var r := st.(log := log, serviceAlive := alive);
    forall n | n in r.processes ensures RegisteredOk(r, n) {
      assert RegisteredOk(st, n);
    }
    forall w | 0 <= w < |r.workers| ensures RelayOk(r, w) {
      assert RelayOk(st, w);
    }
  }

  lemma StopInstanceInv(st: State, name: string)
    requires Inv(st)
    ensures Inv(StopInstance(st, name))
  {
    var r := StopInstance(st, name);
    forall n | n in r.processes ensures RegisteredOk(r, n) {
      assert RegisteredOk(st, n);
      if name in st.processes {
        assert RegisteredOk(st, name);
        assert st.processes[n] != st.processes[name];
      }
    }
    forall w | 0 <= w < |r.workers| ensures RelayOk(r, w) {
      assert RelayOk(st, w);
    }
  }

  lemma {:induction false} StopEachInv(st: State, names: seq<string>)
    requires Inv(st)
    ensures Inv(StopEach(st, names))
    decreases |names|
  {
    if names != [] {
      StopInstanceInv(st, names[0]);
      StopEachInv(StopInstance(st, names[0]), names[1..]);
    }
  }

  lemma CommandInv(st: State, intent: Intent, env: Env, order: seq<string>)
    requires Inv(st) && IsEnumeration(order, st.processes.Keys)
    ensures Inv(OnStartCommand(st, intent, env, order))
  {
    var name := InstanceOf(intent);
    if ActionOf(intent) == StopAction {
      if name == AllInstances {
        StopEachInv(st, order);
        var stopped := StopAllInstances(st, order);
        InvIgnoresLog(StopEach(st, order), stopped.log, stopped.processes != map[]);
      } else {
        StopInstanceInv(st, name);
        var stopped := StopInstance(st, name);
        InvIgnoresLog(stopped, stopped.log, stopped.processes != map[]);
      }
    } else {
      var st1 := st.(serviceAlive := true);
      InvIgnoresLog(st, st.log, true);
      StopInstanceInv(st1, name);
      var r := OnStartCommand(st, intent, env, order);
      var s2 := StopInstance(st1, name);
      assert r.processes == s2.processes && r.children == s2.children && r.runningFlags == s2.runningFlags;
      forall n | n in r.processes ensures RegisteredOk(r, n) {
        assert RegisteredOk(s2, n);
      }
      forall w | 0 <= w < |r.workers| ensures RelayOk(r, w) {
        if w < |s2.workers| {
          assert RelayOk(s2, w);
        }
      }
    }
  }

  lemma CleanupInv(st: State, w: nat)
    requires Inv(st) && w < |st.workers|
    ensures Inv(Cleanup(st, w))
  {
    var r := Cleanup(st, w);
    forall n | n in r.processes ensures RegisteredOk(r, n) {
      assert RegisteredOk(st, n);
    }
    forall v | 0 <= v < |r.workers| ensures RelayOk(r, v) {
      assert RelayOk(st, v);
    }
  }

  lemma SpawnInv(st: State, w: nat, exe: Option<string>, outcome: SpawnOutcome)
    requires Inv(st) && CanSpawn(st, w)
    ensures Inv(Spawn(st, w, exe, outcome))
  {
    var name := st.workers[w].instance;
    if exe.None? {
      var st1 := st.(log := st.log + [LogEvent(name, NoBinaryLine), LogEvent(name, NoBinaryHintLine)]);
      InvIgnoresLog(st, st1.log, st.serviceAlive);
      CleanupInv(st1, w);
    } else if outcome.StartFailed? {
      var st1 := st.(log := st.log + [LogEvent(name, BinaryLine(exe.value)),
                                      LogEvent(name, CommandLine([exe.value] + st.workers[w].args)),
                                      LogEvent(name, ExceptionLine(outcome.message))]);
      InvIgnoresLog(st, st1.log, st.serviceAlive);
      CleanupInv(st1, w);
      assert Spawn(st, w, exe, outcome) == Cleanup(st1, w);
    } else {
      var r := Spawn(st, w, exe, outcome);
      var h := Handle(st.nextPid);
      assert h !in st.children;
      forall n | n in r.processes ensures RegisteredOk(r, n) {
        if n != name {
          assert RegisteredOk(st, n);
        }
      }
      forall v | 0 <= v < |r.workers| ensures RelayOk(r, v) {
        if v != w {
          assert RelayOk(st, v);
        }
      }
    }
  }

  lemma RelayLineInv(st: State, w: nat)
    requires Inv(st) && CanReadLine(st, w)
    ensures Inv(RelayLine(st, w))
  {
    var r := RelayLine(st, w);
    forall n | n in r.processes ensures RegisteredOk(r, n) {
      assert RegisteredOk(st, n);
    }
    forall v | 0 <= v < |r.workers| ensures RelayOk(r, v) {
      assert RelayOk(st, v);
    }
  }

  lemma RelayExitInv(st: State, w: nat, code: int)
    requires Inv(st) && CanFinishRelay(st, w)
    ensures Inv(RelayExit(st, w, code))
  {
    var name := st.workers[w].instance;
    var h := st.workers[w].stage.handle;
    assert RelayOk(st, w);
    var r := RelayExit(st, w, code);
    forall n | n in r.processes ensures RegisteredOk(r, n) {
      assert RegisteredOk(st, n);
      assert st.processes[n] != h;
    }
    forall v | 0 <= v < |r.workers| ensures RelayOk(r, v) {
      assert RelayOk(st, v);
    }
  }

  lemma RelayFailInv(st: State, w: nat, message: Option<string>)
    requires Inv(st) && IsRelaying(st, w)
    ensures Inv(RelayFail(st, w, message))
  {
    var st1 := st.(log := st.log + [LogEvent(st.workers[w].instance, ExceptionLine(message))]);
    InvIgnoresLog(st, st1.log, st.serviceAlive);
    CleanupInv(st1, w);
  }

  /** Every step keeps the invariant. */
  lemma NextInv(st: State, step: Step)
    requires Inv(st) && Enabled(st, step)
    ensures Inv(Next(st, step))
  {
    match step
    case Command(intent, env, order) => CommandInv(st, intent, env, order);
    case Launch(w, exe, outcome) => SpawnInv(st, w, exe, outcome);
    case ReadLine(w) => RelayLineInv(st, w);
    case EndOfRelay(w, code) => RelayExitInv(st, w, code);
    case RelayError(w, message) => RelayFailInv(st, w, message);
  }

  /** Every state reachable from the initial one satisfies the invariant: a
      registered name always names a child of its own that has been neither
      killed nor reaped, with a true flag. */
  lemma {:induction false} RunInv(st: State, steps: seq<Step>)
    requires Inv(st)
    ensures Run(st, steps).Some? ==> Inv(Run(st, steps).value)
    decreases |steps|
  {
    if steps != [] && Enabled(st, steps[0]) {
      NextInv(st, steps[0]);
      RunInv(Next(st, steps[0]), steps[1..]);
    }
  }

  lemma ReachableRegisteredAlive(steps: seq<Step>, n: string)
    requires Run(Init, steps).Some?
    ensures var st := Run(Init, steps).value;
      n in st.processes ==> st.processes[n] in st.children && st.children[st.processes[n]].alive && FlagSet(st, n)
  {
    InitInv();
    RunInv(Init, steps);
    var st := Run(Init, steps).value;
    if n in st.processes {
      assert RegisteredOk(st, n);
    }
  }

  // ---------------------------------------------------------------------
  // Guarantees about single steps

  /** A start command terminates the child currently registered under its
      name before it queues the new launch, so in a sequential run the old
      and the new child never run side by side. */
  lemma RestartTerminatesPrevious(st: State, intent: Intent, env: Env, order: seq<string>)
    requires Inv(st) && IsEnumeration(order, st.processes.Keys)
    requires ActionOf(intent) != StopAction
    requires InstanceOf(intent) in st.processes
    ensures var r := OnStartCommand(st, intent, env, order);
      var h := st.processes[InstanceOf(intent)];
      && h in r.children && !r.children[h].alive
      && InstanceOf(intent) !in r.processes
  {
    assert RegisteredOk(st, InstanceOf(intent));
  }

  /** A start whose arguments build, followed by a successful launch of the
      queued thread, leaves the name registered to a running child with a
      true flag. */
  lemma StartThenLaunchRegisters(st: State, intent: Intent, env: Env, order: seq<string>, exe: string, output: seq<string>, pid: int)
    requires Inv(st) && IsEnumeration(order, st.processes.Keys)
    requires ActionOf(intent) != StopAction
    requires BuildArgs(intent, ModeOf(intent), InstanceOf(intent), env.configs, env.filesDir).args.Some?
    ensures var s1 := OnStartCommand(st, intent, env, order);
      && CanSpawn(s1, |st.workers|)
      && var s2 := Spawn(s1, |st.workers|, Some(exe), Started(output, pid));
      && InstanceOf(intent) in s2.processes && FlagSet(s2, InstanceOf(intent))
      && s2.children[s2.processes[InstanceOf(intent)]].alive
      && Inv(s2)
  {
    CommandInv(st, intent, env, order);
    var s1 := OnStartCommand(st, intent, env, order);
    SpawnInv(s1, |st.workers|, Some(exe), Started(output, pid));
  }

  /** Stopping twice is harmless: the registry, the flags and the children
      end as after one stop, and the log holds two "stopped" lines. */
  lemma StopTwice(st: State, name: string)
    ensures var once := StopInstance(st, name);
      var twice := StopInstance(once, name);
      && twice.processes == once.processes
      && twice.runningFlags == once.runningFlags
      && twice.children == once.children
      && twice.log == st.log + [LogEvent(name, StoppedLine), LogEvent(name, StoppedLine)]
  {
  }

  /** Tags each line with its instance, as the relay broadcasts them. */
  function Tagged(name: string, lines: seq<string>): (r: seq<LogEvent>)
    ensures |r| == |lines|
    ensures forall i | 0 <= i < |lines| :: r[i] == LogEvent(name, lines[i])
  {
    if lines == [] then [] else [LogEvent(name, lines[0])] + Tagged(name, lines[1..])
  }

  /** `k` uninterrupted iterations of one relay loop. */
  function RelayLines(st: State, w: nat, k: nat): (r: State)
    requires IsRelaying(st, w) && FlagSet(st, st.workers[w].instance)
    requires k <= |st.children[st.workers[w].stage.handle].unread|
    ensures IsRelaying(r, w) && r.workers == st.workers
    ensures r.runningFlags == st.runningFlags && r.processes == st.processes
    ensures var h := st.workers[w].stage.handle;
      && r.children[h].unread == st.children[h].unread[k..]
    decreases k
  {
    if k == 0 then
      assert st.children[st.workers[w].stage.handle].unread[..0] == [];
      st
    else
      var h := st.workers[w].stage.handle;
      var lines := st.children[h].unread;
      var s1 := RelayLine(st, w);
      RelayLineKeepsRelaying(st, w);
      var r := RelayLines(s1, w, k - 1);
      assert lines[1..][k - 1..] == lines[k..];
      r
  }

  /** `k` uninterrupted iterations broadcast the first `k` unread lines, in
      order, under the relay's instance. */
  lemma {:induction false} RelayLinesLog(st: State, w: nat, k: nat)
    requires IsRelaying(st, w) && FlagSet(st, st.workers[w].instance)
    requires k <= |st.children[st.workers[w].stage.handle].unread|
    ensures RelayLines(st, w, k).log ==
      st.log + Tagged(st.workers[w].instance, st.children[st.workers[w].stage.handle].unread[..k])
    decreases k
  {
    var name := st.workers[w].instance;
    var lines := st.children[st.workers[w].stage.handle].unread;
    if k == 0 {
      assert lines[..0] == [];
      assert st.log + [] == st.log;
    } else {
      var s1 := RelayLine(st, w);
      RelayLineKeepsRelaying(st, w);
      RelayLinesLog(s1, w, k - 1);
      TaggedPrefixStep(name, lines, k);
      var e := LogEvent(name, lines[0]);
      var t := Tagged(name, lines[1..][..k - 1]);
      assert RelayLines(st, w, k) == RelayLines(s1, w, k - 1);
      assert s1.log == st.log + [e];
      AppendAssoc(st.log, [e], t);
    }
  }

  /** Taking one more line off the front of a prefix. */
  lemma TaggedPrefixStep(name: string, lines: seq<string>, k: nat)
    requires 0 < k <= |lines|
    ensures lines[1..][k - 1..] == lines[k..]
    ensures Tagged(name, lines[..k]) == [LogEvent(name, lines[0])] + Tagged(name, lines[1..][..k - 1])
  {
    assert lines[..k] == [lines[0]] + lines[1..][..k - 1];
    assert lines[..k][1..] == lines[1..][..k - 1];
  }

  /** One iteration leaves the relay running, its flag set, and one line
      fewer to read. */
  lemma RelayLineKeepsRelaying(st: State, w: nat)
    requires CanReadLine(st, w)
    ensures var r := RelayLine(st, w);
      var h := st.workers[w].stage.handle;
      && IsRelaying(r, w) && FlagSet(r, st.workers[w].instance)
      && r.workers == st.workers
      && r.children[h].unread == st.children[h].unread[1..]
      && r.log == st.log + [LogEvent(st.workers[w].instance, st.children[h].unread[0])]
  {
  }

  /** While its flag stays set, a relay forwards its child's output exactly
      and in production order; once everything is read, the only step left
      to it is the end of the loop. */
  lemma RelayForwardsInOrder(st: State, w: nat)
    requires IsRelaying(st, w) && FlagSet(st, st.workers[w].instance)
    ensures var h := st.workers[w].stage.handle;
      var lines := st.children[h].unread;
      var r := RelayLines(st, w, |lines|);
      && r.log == st.log + Tagged(st.workers[w].instance, lines)
      && !CanReadLine(r, w) && CanFinishRelay(r, w)
  {
    var lines := st.children[st.workers[w].stage.handle].unread;
    RelayLinesLog(st, w, |lines|);
    assert lines[..|lines|] == lines;
  }

  /** Once its name is stopped, no further iteration of the relay's loop
      starts: the flag check fails and the loop can only end. */
  lemma StopHaltsRelay(st: State, w: nat)
    requires IsRelaying(st, w)
    ensures var r := StopInstance(st, st.workers[w].instance);
      !CanReadLine(r, w) && CanFinishRelay(r, w)
  {
  }

  // ---------------------------------------------------------------------
  // Forwarding order under every interleaving

  /** What the relay has forwarded and what is left to read together are a
      prefix of everything the child writes; while the child runs nothing
      has been lost. */
  predicate HistoryOk(c: Child) {
    && c.relayed + c.unread <= c.output
    && (c.alive ==> c.relayed + c.unread == c.output)
  }

  predicate HistoriesOk(st: State) {
    forall h | h in st.children :: HistoryOk(st.children[h])
  }

  /** The step is an iteration of a relay loop reading the child `h`. */
  predicate ReadsFrom(st: State, step: Step, h: Handle) {
    step.ReadLine? && step.worker < |st.workers| && st.workers[step.worker].stage == Relaying(h)
  }

  /** The log events that relay iterations reading the child `h` add to the
      log over a run, in the order the run adds them. */
  function RelayEvents(st: State, steps: seq<Step>, h: Handle): seq<LogEvent>
    decreases |steps|
  {
    if steps == [] || !Enabled(st, steps[0]) then []
    else
      var next := Next(st, steps[0]);
      var own := if ReadsFrom(st, steps[0], h) then next.log[|st.log|..] else [];
      own + RelayEvents(next, steps[1..], h)
  }

  /** A command changes a child only by terminating it. */
  lemma CommandHistory(st: State, intent: Intent, env: Env, order: seq<string>, h: Handle)
    requires IsEnumeration(order, st.processes.Keys) && h in st.children
    ensures var r := OnStartCommand(st, intent, env, order);
      && h in r.children
      && (r.children[h] == st.children[h]
          || (SameHistory(r.children[h], st.children[h]) && r.children[h].unread == [] && !r.children[h].alive))
  {
    if ActionOf(intent) == StopAction && InstanceOf(intent) == AllInstances {
      StopEachChildren(st, order);
    }
  }

  /** How one step changes the record of the child `h`: a read moves the
      next line from `unread` to `relayed` and logs it under the child's
      instance; any other step leaves an existing child alone or terminates
      it; a child that appears is new, with nothing read yet. */
  lemma NextHistory(st: State, step: Step, h: Handle)
    requires Inv(st) && Enabled(st, step)
    ensures var r := Next(st, step);
      && (h in st.children ==> h in r.children)
      && (ReadsFrom(st, step, h) ==>
            var c := st.children[h];
            && h in st.children && c.unread != []
            && r.children[h] == c.(relayed := c.relayed + [c.unread[0]], unread := c.unread[1..])
            && r.log == st.log + [LogEvent(c.instance, c.unread[0])])
      && (h in st.children && !ReadsFrom(st, step, h) ==>
            || r.children[h] == st.children[h]
            || (SameHistory(r.children[h], st.children[h]) && r.children[h].unread == [] && !r.children[h].alive))
      && (h !in st.children && h in r.children ==>
            r.children[h].relayed == [] && r.children[h].unread == r.children[h].output && r.children[h].alive)
  {
    match step
    case Command(intent, env, order) =>
      if h in st.children {
        CommandHistory(st, intent, env, order, h);
      }
    case Launch(w, exe, outcome) =>
      FreshHandle(st);
    case ReadLine(w) =>
      assert RelayOk(st, w);
    case EndOfRelay(w, code) =>
    case RelayError(w, message) =>
  }

  lemma NextHistoriesOk(st: State, step: Step)
    requires Inv(st) && HistoriesOk(st) && Enabled(st, step)
    ensures HistoriesOk(Next(st, step))
  {
    var r := Next(st, step);
    forall h | h in r.children ensures HistoryOk(r.children[h]) {
      NextHistory(st, step, h);
      if ReadsFrom(st, step, h) {
        var c := st.children[h];
        assert (c.relayed + [c.unread[0]]) + c.unread[1..] == c.relayed + c.unread;
      } else if h in st.children {
        assert HistoryOk(st.children[h]);
      }
    }
  }

  lemma TaggedAppend(name: string, lines: seq<string>, line: string)
    ensures Tagged(name, lines + [line]) == Tagged(name, lines) + [LogEvent(name, line)]
  {
  }

  /** Over any run, the events the relays of `h` add to the log are the
      lines `h` gained in `relayed`, tagged with its instance. */
  lemma {:induction false} RelayEventsAreRelayed(st: State, steps: seq<Step>, h: Handle)
    requires Inv(st) && HistoriesOk(st) && Run(st, steps).Some?
    ensures var fin := Run(st, steps).value;
      var before := if h in st.children then st.children[h].relayed else [];
      && (h in st.children ==> h in fin.children && fin.children[h].instance == st.children[h].instance)
      && (h in fin.children ==>
            && HistoryOk(fin.children[h])
            && Tagged(fin.children[h].instance, fin.children[h].relayed)
                 == Tagged(fin.children[h].instance, before) + RelayEvents(st, steps, h))
    decreases |steps|
  {
    if steps == [] {
      if h in st.children {
        assert Tagged(st.children[h].instance, st.children[h].relayed) + [] == Tagged(st.children[h].instance, st.children[h].relayed);
      }
    } else {
      var next := Next(st, steps[0]);
      NextInv(st, steps[0]);
      NextHistoriesOk(st, steps[0]);
      NextHistory(st, steps[0], h);
      RelayEventsAreRelayed(next, steps[1..], h);
      var fin := Run(st, steps).value;
      assert fin == Run(next, steps[1..]).value;
      var rest := RelayEvents(next, steps[1..], h);
      if h in fin.children {
        var name := fin.children[h].instance;
        if ReadsFrom(st, steps[0], h) {
          var c := st.children[h];
          var e := LogEvent(c.instance, c.unread[0]);
          assert next.log[|st.log|..] == [e];
          assert RelayEvents(st, steps, h) == [e] + rest;
          TaggedAppend(name, c.relayed, c.unread[0]);
          AppendAssoc(Tagged(name, c.relayed), [e], rest);
        } else {
          assert RelayEvents(st, steps, h) == [] + rest;
          assert [] + rest == rest;
        }
      }
    }
  }

  /** Under every interleaving of commands, launches and relay steps, the
      lines broadcast for a child are exactly the lines its relay forwarded,
      tagged with its instance, and these are a prefix of what the child
      writes, in the order it writes them; while the child runs, what is
      forwarded and what is still unread make up its whole output. */
  lemma RelayForwardsInProductionOrder(steps: seq<Step>, h: Handle)
    requires Run(Init, steps).Some?
    ensures var st := Run(Init, steps).value;
      h in st.children ==>
        var c := st.children[h];
        && RelayEvents(Init, steps, h) == Tagged(c.instance, c.relayed)
        && c.relayed <= c.output
        && (c.alive ==> c.relayed + c.unread == c.output)
  {
    InitInv();
    ForwardsFromNoChildren(Init, steps, h);
  }

  /** The same from any state that satisfies the invariant and has no
      children yet. */
  lemma ForwardsFromNoChildren(st: State, steps: seq<Step>, h: Handle)
    requires Inv(st) && st.children == map[] && Run(st, steps).Some?
    ensures var fin := Run(st, steps).value;
      h in fin.children ==>
        var c := fin.children[h];
        && RelayEvents(st, steps, h) == Tagged(c.instance, c.relayed)
        && c.relayed <= c.output
        && (c.alive ==> c.relayed + c.unread == c.output)
  {
    RelayEventsAreRelayed(st, steps, h);
    var fin := Run(st, steps).value;
    if h in fin.children {
      var c := fin.children[h];
      var events := RelayEvents(st, steps, h);
      assert Tagged(c.instance, c.relayed) == Tagged(c.instance, []) + events;
      assert Tagged(c.instance, []) + events == events;
      PrefixOfPrefix(c.relayed, c.unread, c.output);
    }
  }

  lemma PrefixOfPrefix<T>(a: seq<T>, b: seq<T>, c: seq<T>)
    requires a + b <= c
    ensures a <= c
  {
    assert (a + b)[..|a|] == a;
  }

  // ---------------------------------------------------------------------
  // How a running child falls out of the registry

  /** The `finally` block unregisters by name, not by handle. A relay of an
      earlier run whose loop ends after a newer child was registered under
      the same name unregisters that newer child while it is still running. */
  lemma StaleRelayUnregistersNewer(st: State, w: nat, code: int)
    requires Inv(st) && CanFinishRelay(st, w)
    requires st.workers[w].instance in st.processes
    requires st.processes[st.workers[w].instance] != st.workers[w].stage.handle
    ensures var newer := st.processes[st.workers[w].instance];
      var r := RelayExit(st, w, code);
      && newer in r.children && r.children[newer].alive
      && st.workers[w].instance !in r.processes
  {
    assert RegisteredOk(st, st.workers[w].instance);
  }

  /** The `catch` block leaves the child alone, but the `finally` block
      still unregisters the name: after a read error the child registered
      under the name (the relay's own or a newer one) keeps running,
      unregistered. */
  lemma RelayErrorUnregistersRunning(st: State, w: nat, message: Option<string>)
    requires Inv(st) && IsRelaying(st, w)
    requires st.workers[w].instance in st.processes
    ensures var h := st.processes[st.workers[w].instance];
      var r := RelayFail(st, w, message);
      && h in r.children && r.children[h].alive
      && st.workers[w].instance !in r.processes
  {
    assert RegisteredOk(st, st.workers[w].instance);
  }

  /** A launch that fails, for a missing binary or a failed spawn, ends in
      the same `finally` block: when a child of the same name registered in
      the meantime, that running child is unregistered. */
  lemma FailedLaunchUnregistersRunning(st: State, w: nat, exe: Option<string>, outcome: SpawnOutcome)
    requires Inv(st) && CanSpawn(st, w)
    requires st.workers[w].instance in st.processes
    requires exe.None? || outcome.StartFailed?
    ensures var h := st.processes[st.workers[w].instance];
      var r := Spawn(st, w, exe, outcome);
      && h in r.children && r.children[h].alive
      && st.workers[w].instance !in r.processes
  {
    assert RegisteredOk(st, st.workers[w].instance);
  }

  /** The spawn happens on the launch thread, so a second start of a name
      finds nothing to stop while the first launch is still pending. Both
      launches then register in turn and the first child keeps running,
      unregistered, next to the second. */
  lemma PendingLaunchesOrphan(st: State, w1: nat, w2: nat, exe: string, out1: seq<string>, out2: seq<string>, pid1: int, pid2: int)
    requires Inv(st) && CanSpawn(st, w1) && CanSpawn(st, w2) && w1 != w2
    requires st.workers[w1].instance == st.workers[w2].instance
    ensures var s1 := Spawn(st, w1, Some(exe), Started(out1, pid1));
      var first := s1.processes[st.workers[w1].instance];
      && CanSpawn(s1, w2)
      && var s2 := Spawn(s1, w2, Some(exe), Started(out2, pid2));
      && first in s2.children && s2.children[first].alive
      && s2.processes[st.workers[w1].instance] != first
  {
  }

  /** The command used in the run below: start `a` in command-line mode. */
  const StartA: Intent := Intent(None, Some("a"), Some(1), None, None, None, Some("x"), None)
  const NoConfigs: Env := Env("/data", map[])
  const StaleRun: seq<Step> :=
    [Command(StartA, NoConfigs, []), Launch(0, Some("/lib/vwarp"), Started([], 1)),
     Command(StartA, NoConfigs, ["a"]), Launch(1, Some("/lib/vwarp"), Started([], 2)),
     EndOfRelay(0, 0)]

  /** The first two steps: `a` is started and its child registered. */
  lemma StaleRunFirstChild()
    ensures var s1 := OnStartCommand(Init, StartA, NoConfigs, []);
      && s1.workers == [Worker("a", ["x"], Launching)]
      && s1.processes == map[] && s1.nextPid == 0
  {
    assert Words("x") == ["x"] by { WordsOfJoin(["x"]); }
  }

  /** The next two steps: `a` is restarted and the new child registered,
      while the first relay is still in its loop. */
  lemma StaleRunSecondChild(s2: State)
    requires s2 == Spawn(OnStartCommand(Init, StartA, NoConfigs, []), 0, Some("/lib/vwarp"), Started([], 1))
    ensures s2.processes == map["a" := Handle(0)] && Handle(0) in s2.children
    ensures var s3 := OnStartCommand(s2, StartA, NoConfigs, ["a"]);
      && s3.processes == map[]
      && |s3.workers| == 2 && s3.workers[1] == Worker("a", ["x"], Launching)
      && s3.workers[0] == Worker("a", ["x"], Relaying(Handle(0)))
      && s3.nextPid == 1 && Handle(0) in s3.children && s3.children[Handle(0)].unread == []
  {
    StaleRunFirstChild();
  }

  /** The stale relay is reachable from a fresh service: start `a`, let its
      child register, restart `a`, let the new child register, and only then
      let the first relay see end-of-stream. */
  lemma StaleRelayReachable()
    ensures Run(Init, StaleRun).Some?
    ensures var st := Run(Init, StaleRun).value;
      && Handle(1) in st.children && st.children[Handle(1)].alive
      && st.processes == map[]
  {
    StaleRunFirstChild();
    var s1 := OnStartCommand(Init, StartA, NoConfigs, []);
    var s2 := Spawn(s1, 0, Some("/lib/vwarp"), Started([], 1));
    StaleRunSecondChild(s2);
    var s3 := OnStartCommand(s2, StartA, NoConfigs, ["a"]);
    var s4 := Spawn(s3, 1, Some("/lib/vwarp"), Started([], 2));
    StaleRunLastSteps(s3, s4);
    var s5 := RelayExit(s4, 0, 0);
    RunStep(Init, StaleRun);
    RunStep(s1, StaleRun[1..]);
    RunStep(s2, StaleRun[2..]);
    RunStep(s3, StaleRun[3..]);
    RunStep(s4, StaleRun[4..]);
    assert StaleRun[5..] == [];
  }

  /** The last two steps: the second child registers, then the first
      relay's loop ends and unregisters it. */
  lemma StaleRunLastSteps(s3: State, s4: State)
    requires s3.processes == map[]
    requires |s3.workers| == 2 && s3.workers[1] == Worker("a", ["x"], Launching)
    requires s3.workers[0] == Worker("a", ["x"], Relaying(Handle(0)))
    requires s3.nextPid == 1 && Handle(0) in s3.children && s3.children[Handle(0)].unread == []
    requires s4 == Spawn(s3, 1, Some("/lib/vwarp"), Started([], 2))
    ensures s4.processes == map["a" := Handle(1)]
    ensures s4.children[Handle(1)].alive
    ensures CanFinishRelay(s4, 0)
    ensures var s5 := RelayExit(s4, 0, 0);
      s5.processes == map[] && Handle(1) in s5.children && s5.children[Handle(1)].alive
  {
    assert s4.children == s3.children[Handle(1) := Child("a", [], [], [], true)];
    assert s4.workers[0] == s3.workers[0];
  }
}

=== FILE: string_order.dfy ===
/** The natural order of strings (`String.compareTo`) and Kotlin's
    `sorted()` on a list of strings, written as an insertion sort. */
module StringOrder {

  /** Lexicographic order on characters; a proper prefix comes first. */
  predicate Less(a: string, b: string) {
    |b| > 0 && (|a| == 0 || a[0] < b[0] || (a[0] == b[0] && Less(a[1..], b[1..])))
  }

  predicate LessEq(a: string, b: string) {
    a == b || Less(a, b)
  }

  lemma {:induction false} LessIrreflexive(a: string)
    ensures !Less(a, a)
    decreases |a|
  {
    if |a| > 0 {
      LessIrreflexive(a[1..]);
    }
  }

  lemma {:induction false} LessAsymmetric(a: string, b: string)
    ensures Less(a, b) ==> !Less(b, a)
    decreases |a|
  {
    if |a| > 0 && |b| > 0 && a[0] == b[0] {
      LessAsymmetric(a[1..], b[1..]);
    }
  }

  lemma {:induction false} LessTransitive(a: string, b: string, c: string)
    ensures Less(a, b) && Less(b, c) ==> Less(a, c)
    decreases |a|
  {
    if |a| > 0 && |b| > 0 && |c| > 0 && a[0] == b[0] && b[0] == c[0] {
      LessTransitive(a[1..], b[1..], c[1..]);
    }
  }

  lemma {:induction false} LessTotal(a: string, b: string)
    ensures a == b || Less(a, b) || Less(b, a)
    decreases |a|
  {
    if |a| > 0 && |b| > 0 && a[0] == b[0] {
      LessTotal(a[1..], b[1..]);
      if a[1..] == b[1..] {
        assert a == [a[0]] + a[1..] && b == [b[0]] + b[1..];
      }
    }
  }

  lemma LessEqTransitive(a: string, b: string, c: string)
    ensures LessEq(a, b) && LessEq(b, c) ==> LessEq(a, c)
  {
    LessTransitive(a, b, c);
  }

  lemma LessEqAntisymmetric(a: string, b: string)
    ensures LessEq(a, b) && LessEq(b, a) ==> a == b
  {
    LessAsymmetric(a, b);
  }

  predicate Sorted(s: seq<string>) {
    forall i, j | 0 <= i < j < |s| :: LessEq(s[i], s[j])
  }

  predicate StrictlySorted(s: seq<string>) {
    forall i, j | 0 <= i < j < |s| :: Less(s[i], s[j])
  }

  predicate Distinct(s: seq<string>) {
    forall i, j | 0 <= i < j < |s| :: s[i] != s[j]
  }

  /** A sorted sequence stays sorted under a new least element. */
  lemma ConsSorted(y: string, t: seq<string>)
    requires Sorted(t)
    requires forall j | 0 <= j < |t| :: LessEq(y, t[j])
    ensures Sorted([y] + t)
  {
    var r := [y] + t;
    forall i, j | 0 <= i < j < |r| ensures LessEq(r[i], r[j]) {
      if i > 0 {
        assert r[i] == t[i - 1] && r[j] == t[j - 1];
      } else {
        assert r[j] == t[j - 1];
      }
    }
  }

  /** Inserts `x` after every element smaller than it. */
  function {:induction false} Insert(x: string, s: seq<string>): (r: seq<string>)
    requires Sorted(s)
    ensures Sorted(r)
    ensures multiset(r) == multiset(s) + multiset{x}
  {
    if s == [] then [x]
    else if LessEq(x, s[0]) then
      assert forall j | 0 <= j < |s| :: LessEq(x, s[j]) by {
        forall j | 0 <= j < |s| ensures LessEq(x, s[j]) {
          LessEqTransitive(x, s[0], s[j]);
        }
      }
      ConsSorted(x, s);
      [x] + s
    else
      var t := Insert(x, s[1..]);
      assert s == [s[0]] + s[1..];
      assert LessEq(s[0], x) by { LessTotal(x, s[0]); }
      assert forall j | 0 <= j < |t| :: LessEq(s[0], t[j]) by {
        forall j | 0 <= j < |t| ensures LessEq(s[0], t[j]) {
          assert t[j] in multiset(t);
          if t[j] != x {
            assert t[j] in multiset(s[1..]);
          }
        }
      }
      ConsSorted(s[0], t);
      [s[0]] + t
  }

  /** Kotlin's `sorted()`: an ascending permutation of the input. */
  function {:induction false} Sort(s: seq<string>): (r: seq<string>)
    ensures Sorted(r)
    ensures multiset(r) == multiset(s)
  {
    if s == [] then []
    else
      assert s == s[..|s| - 1] + [s[|s| - 1]];
      Insert(s[|s| - 1], Sort(s[..|s| - 1]))
  }

  /** The first element of a sorted sequence is below everything in it. */
  lemma HeadIsLeast(s: seq<string>, x: string)
    requires Sorted(s) && x in multiset(s)
    ensures LessEq(s[0], x)
  {
    var k :| 0 <= k < |s| && s[k] == x;
  }

  /** A multiset has one sorted arrangement, so a sorted result depends
      only on the elements of its input, never on their order. */
  lemma {:induction false} SortedUnique(a: seq<string>, b: seq<string>)
    requires Sorted(a) && Sorted(b)
    requires multiset(a) == multiset(b)
    ensures a == b
    decreases |a|
  {
    if a != [] {
      assert a[0] in multiset(a);
      assert |b| == |a|;
      assert b[0] in multiset(b);
      HeadIsLeast(a, b[0]);
      HeadIsLeast(b, a[0]);
      LessEqAntisymmetric(a[0], b[0]);
      assert a == [a[0]] + a[1..] && b == [b[0]] + b[1..];
      assert a[0] == b[0];
      calc {
        multiset(a[1..]);
        multiset(a) - multiset{a[0]};
        multiset(b) - multiset{b[0]};
        multiset(b[1..]);
      }
      SortedUnique(a[1..], b[1..]);
    } else {
      assert |b| == 0;
    }
  }

  lemma SortIgnoresOrder(p: seq<string>, q: seq<string>)
    requires multiset(p) == multiset(q)
    ensures Sort(p) == Sort(q)
  {
    SortedUnique(Sort(p), Sort(q));
  }

  /** Sorting distinct strings gives a strictly ascending sequence. */
  lemma SortDistinct(s: seq<string>)
    requires Distinct(s)
    ensures StrictlySorted(Sort(s))
  {
    var r := Sort(s);
    forall i, j | 0 <= i < j < |r| ensures Less(r[i], r[j]) {
      if r[i] == r[j] {
        DistinctHasNoDuplicates(s, r[i]);
        TwoOccurrences(r, i, j);
      }
    }
  }

  lemma TwoOccurrences(r: seq<string>, i: int, j: int)
    requires 0 <= i < j < |r| && r[i] == r[j]
    ensures multiset(r)[r[i]] >= 2
  {
    assert r == r[..j] + r[j..];
    assert r[i] in r[..j];
    assert r[j..][0] == r[j];
    assert multiset(r) == multiset(r[..j]) + multiset(r[j..]);
  }

  lemma {:induction false} DistinctHasNoDuplicates(s: seq<string>, x: string)
    requires Distinct(s)
    ensures multiset(s)[x] <= 1
    decreases |s|
  {
    if s != [] {
      assert s == [s[0]] + s[1..];
      DistinctHasNoDuplicates(s[1..], x);
      if x == s[0] {
        assert x !in s[1..];
      }
    }
  }
}

=== FILE: strings.dfy ===
/** The Kotlin and Java string primitives the application relies on:
    the two notions of white space, `trim()`, `joinToString`, `contains`
    and `Int.toString()`. */
module Strings {

  /** The character class `\s` of `java.util.regex` on Android, whose regex
      engine is ICU: the Unicode White_Space characters. These are the
      controls U+0009..U+000D and U+0085, the space, the no-break spaces,
      the other space separators, and the line and paragraph separators. */
  predicate IsRegexSpace(c: char) {
    || ('\t' <= c <= '\r')
    || c == ' ' || c == '\U{0085}' || c == '\U{00A0}' || c == '\U{1680}'
    || ('\U{2000}' <= c <= '\U{200A}')
    || c == '\U{2028}' || c == '\U{2029}' || c == '\U{202F}' || c == '\U{205F}'
    || c == '\U{3000}'
  }

  /** Kotlin's `Char.isWhitespace()` on the JVM: `Character.isWhitespace`
      (the controls U+0009..U+000D, the separators U+001C..U+001F, and the
      space, line and paragraph separators) together with
      `Character.isSpaceChar` (which adds the no-break spaces). Unlike the
      regex class it leaves out U+0085. */
  predicate IsWhitespace(c: char) {
    || ('\t' <= c <= '\r')
    || ('\U{001C}' <= c <= '\U{001F}')
    || c == ' ' || c == '\U{00A0}' || c == '\U{1680}'
    || ('\U{2000}' <= c <= '\U{200A}')
    || c == '\U{2028}' || c == '\U{2029}' || c == '\U{202F}' || c == '\U{205F}'
    || c == '\U{3000}'
  }

  predicate AllWhitespace(s: string) {
    forall i | 0 <= i < |s| :: IsWhitespace(s[i])
  }

  /** Neither the first nor the last character is white space. */
  predicate IsTrimmed(s: string) {
    s == [] || (!IsWhitespace(s[0]) && !IsWhitespace(s[|s| - 1]))
  }

  lemma AllWhitespaceCons(c: char, t: string)
    requires IsWhitespace(c) && AllWhitespace(t)
    ensures AllWhitespace([c] + t)
  {
    forall i | 0 <= i < |[c] + t| ensures IsWhitespace(([c] + t)[i]) {
      if i > 0 {
        assert ([c] + t)[i] == t[i - 1];
      }
    }
  }

  /** Drops the white-space prefix. */
  function TrimStart(s: string): (r: string)
    ensures |r| <= |s| && r == s[|s| - |r|..]
    ensures AllWhitespace(s[..|s| - |r|])
    ensures r == [] || !IsWhitespace(r[0])
  {
    if |s| > 0 && IsWhitespace(s[0]) then
      var r := TrimStart(s[1..]);
      assert s[..|s| - |r|] == [s[0]] + s[1..][..|s| - 1 - |r|];
      AllWhitespaceCons(s[0], s[1..][..|s| - 1 - |r|]);
      assert r == s[|s| - |r|..];
      r
    else s
  }

  /** Drops the white-space suffix. */
  function TrimEnd(s: string): (r: string)
    ensures |r| <= |s| && r == s[..|r|]
    ensures AllWhitespace(s[|r|..])
    ensures r == [] || !IsWhitespace(r[|r| - 1])
  {
    if |s| > 0 && IsWhitespace(s[|s| - 1]) then
      var t := s[..|s| - 1];
      var r := TrimEnd(t);
      assert s[|r|..] == t[|r|..] + [s[|s| - 1]];
      assert r == s[..|r|];
      r
    else s
  }

  /** Kotlin's `String.trim()`: the longest infix that neither starts nor
      ends with white space, or the empty string for a blank input. */
  function Trim(s: string): (r: string)
    ensures IsTrimmed(r)
    ensures |r| <= |s|
    ensures r == [] <==> AllWhitespace(s)
  {
    var t := TrimStart(s);
    var r := TrimEnd(t);
    assert r == [] ==> AllWhitespace(s) by {
      if r == [] {
        assert AllWhitespace(t);
        assert s == s[..|s| - |t|] + t;
      }
    }
    r
  }

  lemma {:induction false} TrimStartSkips(a: string, t: string)
    requires AllWhitespace(a)
    requires t == [] || !IsWhitespace(t[0])
    ensures TrimStart(a + t) == t
    decreases |a|
  {
    if |a| > 0 {
      assert (a + t)[1..] == a[1..] + t;
      TrimStartSkips(a[1..], t);
    } else {
      assert a + t == t;
    }
  }

  lemma {:induction false} TrimEndSkips(t: string, b: string)
    requires AllWhitespace(b)
    requires t == [] || !IsWhitespace(t[|t| - 1])
    ensures TrimEnd(t + b) == t
    decreases |b|
  {
    if |b| > 0 {
      assert (t + b)[..|t + b| - 1] == t + b[..|b| - 1];
      TrimEndSkips(t, b[..|b| - 1]);
    } else {
      assert t + b == t;
    }
  }

  /** `trim()` is characterised by what it keeps: a trimmed core surrounded
      by white space trims to exactly that core. */
  lemma TrimSurrounded(a: string, m: string, b: string)
    requires AllWhitespace(a) && AllWhitespace(b)
    requires IsTrimmed(m)
    ensures Trim(a + m + b) == m
  {
    if m == [] {
      assert a + m + b == a + b;
      assert AllWhitespace(a + b);
    } else {
      assert a + m + b == a + (m + b);
      TrimStartSkips(a, m + b);
      TrimEndSkips(m, b);
    }
  }

  /** Trimming a trimmed string changes nothing, so `trim()` is idempotent. */
  lemma TrimIdempotent(s: string)
    ensures IsTrimmed(s) ==> Trim(s) == s
    ensures Trim(Trim(s)) == Trim(s)
  {
    if IsTrimmed(s) {
      TrimSurrounded([], s, []);
      assert [] + s + [] == s;
    }
    TrimSurrounded([], Trim(s), []);
    assert [] + Trim(s) + [] == Trim(s);
  }

  /** Kotlin's `joinToString(sep)`. */
  function Join(parts: seq<string>, sep: string): string {
    if |parts| == 0 then ""
    else if |parts| == 1 then parts[0]
    else parts[0] + sep + Join(parts[1..], sep)
  }

  /** `sub` occurs in `s` starting at index `i`. */
  predicate OccursAt(s: string, sub: string, i: int) {
    0 <= i && i + |sub| <= |s| && s[i..i + |sub|] == sub
  }

  /** Kotlin's `CharSequence.contains(other)`, a left-to-right search. */
  predicate Contains(s: string, sub: string) {
    |sub| <= |s| && (s[..|sub|] == sub || Contains(s[1..], sub))
  }

  /** An occurrence at index `i` is found by the search. */
  lemma {:induction false} OccursContains(s: string, sub: string, i: int)
    requires OccursAt(s, sub, i)
    ensures Contains(s, sub)
    decreases i
  {
    if i == 0 {
      assert s[..|sub|] == s[0..|sub|];
    } else {
      assert s[1..][i - 1..i - 1 + |sub|] == s[i..i + |sub|];
      OccursContains(s[1..], sub, i - 1);
    }
  }

  /** The search finds `sub` exactly when it occurs somewhere in `s`. */
  lemma {:induction false} ContainsIff(s: string, sub: string)
    ensures Contains(s, sub) <==> exists i :: OccursAt(s, sub, i)
    decreases |s|
  {
    if exists i :: OccursAt(s, sub, i) {
      var i :| OccursAt(s, sub, i);
      OccursContains(s, sub, i);
    }
    if Contains(s, sub) {
      if s[..|sub|] == sub {
        assert OccursAt(s, sub, 0);
      } else {
        ContainsIff(s[1..], sub);
        var i :| OccursAt(s[1..], sub, i);
        assert s[i + 1..i + 1 + |sub|] == s[1..][i..i + |sub|];
        assert OccursAt(s, sub, i + 1);
      }
    }
  }

  /** Whatever surrounds it, a string containing `sub` as an infix contains it. */
  lemma ContainsInfix(a: string, sub: string, b: string)
    ensures Contains(a + sub + b, sub)
  {
    assert (a + sub + b)[|a|..|a| + |sub|] == sub;
    assert OccursAt(a + sub + b, sub, |a|);
    ContainsIff(a + sub + b, sub);
  }

  function DigitChar(d: nat): char
    requires d < 10
  {
    "0123456789"[d]
  }

  function NatToString(n: nat): string
    decreases n
  {
    if n < 10 then [DigitChar(n)] else NatToString(n / 10) + [DigitChar(n % 10)]
  }

  /** Kotlin's `Int.toString()` in base 10, as used by string templates. */
  function IntToString(i: int): string {
    if i < 0 then "-" + NatToString(-i) else NatToString(i)
  }

  /** Concatenation regroups freely; stated once so that proofs over long
      sequences of records need not rediscover it. */
  lemma AppendAssoc<T>(a: seq<T>, b: seq<T>, c: seq<T>)
    ensures (a + b) + c == a + (b + c)
  {
  }
}

=== FILE: wrappers.dfy ===
/** The nullable values of the Kotlin source (`String?`, an absent intent
    extra, a missing preference) are written as `Option`. */
module Wrappers {

  datatype Option<+T> = None | Some(value: T) {

    /** Kotlin's elvis operator `x ?: default`: the default replaces a null only. */
    function GetOr(default: T): T {
      match this
      case Some(v) => v
      case None => default
    }
  }
}
